=== FILE: README.md ===
# Admission Source Analysis — a verified model of the dashboard's data pipeline

The dashboard in `main.py` lets a user upload a spreadsheet of admission records, pick an
"admission source" column and a "confirmation" column, and see how many records fall in each
(source, confirmation) pair. The sources are ranked by their total number of records and only
the first `TOP_N` are shown, where `TOP_N` comes from a slider between 5 and 30.

This project models that pipeline in Dafny and proves what it computes. The pipeline has
these steps:

1. **Load.** Pick a reader from the lower-cased file extension (`.csv`, `.xls`, `.xlsx`),
   drop duplicate rows, and strip the column headers.
2. **Clean.** Rewrite each of the two selected columns in place as
   `astype(str).str.strip().str.title()`.
3. **Cross-tabulate.** Build the `pd.crosstab` of the two cleaned columns.
4. **Rank.** Add a row-total column named "Total", sort by it in descending order, drop it,
   and keep the first `TOP_N` rows.

Modules, one file each:

| module | file | models |
|---|---|---|
| `Text` | text.dfy | `str.lower`, `str.endswith`, `str.strip` and `str.title`, over ASCII |
| `LexOrder` | lexorder.dfy | Python's string order, and the sorted distinct labels of a crosstab axis |
| `Cells` | cells.dfy | cell values, `astype(str)`, and the cleaning of one cell |
| `Sheets` | sheet.dfy | the loaded frame as a `Sheet` object, changed in place by `drop_duplicates`, the header strip and the column clean-up |
| `Loader` | loader.dfy | `load_data` |
| `CrossTab` | crosstab.dfy | `pd.crosstab` as a count table |
| `Ranking` | ranking.dfy | ranking rows by total and keeping the first `n`, with the totals kept out of the table |
| `TotalColumn` | totalcolumn.dfy | lines 111-117 as written, with the in-place "Total" column |
| `Dashboard` | dashboard.dfy | one whole run with the ranking corrected as under "Findings", as a function (`Analyse`) and as the in-place method (`Run`); and the table lines 111-117 display as written (`AsWrittenReport`), related to it |
| `Scenario` | scenario.dfy | a worked example with three records, from the uploaded file to the displayed table |
| `Wrappers` | wrappers.dfy | the `Result` type |

The Python string functions are modelled on ASCII:
- Whitespace is what `str.isspace` accepts: code points 9-13 and 28-32.
- The cased characters are the ASCII letters.
- Every other character is uncased and left unchanged.

The three file readers are a parameter: a function from the chosen format to a parsed grid
or a diagnostic.

## Model

| member | source | states |
|---|---|---|
| Text.EndsWith | main.py:35-44 | `s.endswith(suffix)` holds exactly when `s` is some text followed by `suffix` |
| Text.Lower | main.py:35 | `name.lower()` keeps the length and lower-cases each character |
| Text.Strip | main.py:63 | `str.strip()`: the result neither starts nor ends with whitespace, starts where the leading whitespace ends, and only whitespace follows it |
| Text.StripKeepsStripped | main.py:63 | stripping a value with no outer whitespace returns it unchanged |
| Text.TitleFrom | main.py:87-88 | `str.title` character by character: a letter is upper-cased after a non-letter or at the start, and lower-cased after a letter |
| Text.Title | main.py:87-88 | title-casing keeps the length, keeps whitespace and non-letters where they are, and letters stay letters |
| Text.TitleIdempotent | main.py:87-88 | title-casing a title-cased value changes nothing |
| Text.Normalize | main.py:87-88 | `.str.strip().str.title()` on one value: the result is no longer than the value and has no outer whitespace; `Text.NormalizeIdempotent` shows that cleaning again changes nothing |
| Text.NormalizeIdempotent | main.py:87-88 | a cleaned value (strip, then title) has no outer whitespace, and cleaning it again changes nothing |
| Text.NormalizeWord | main.py:87-88 | a word of letters is cleaned to its first letter upper-cased followed by the rest lower-cased |
| Text.CapitalisedIsClean | main.py:87-88 | a capitalised word is a fixed point of the cleaning |
| Text.NormalizeLength | main.py:87-88 | cleaning never lengthens a value, and a value without outer whitespace keeps its length |
| Cells.Decimal | main.py:87-88 | `str(n)` of an integer in canonical form: a leading minus sign exactly when `n` is negative, then digits only, with no leading zero (only 0 itself is written "0") |
| Cells.DigitsDenote | main.py:87-88 | the decimal digits of a natural number `n` denote `n` |
| Cells.DecimalDenotes | main.py:87-88 | `str(n)` denotes `n`: the digits after the sign, if any, spell the absolute value of `n` |
| Cells.DecimalInjective | main.py:87-88 | two integers with the same text are equal, so different integer labels stay different categories |
| Cells.ToStr | main.py:87-88 | `astype(str)`: text stays as it is; an integer becomes an optional minus sign and digits that denote its absolute value, with no leading zero; booleans become "True"/"False"; a blank becomes "nan" |
| Cells.NormalizeCell | main.py:87-88 | every cell of a cleaned column becomes a text cell without outer whitespace |
| Cells.NormalizeCellIdempotent | main.py:87-88 | cleaning a cell twice is the same as cleaning it once |
| Cells.NumberSurvivesNormalize | main.py:87-88 | an integer cell is cleaned to its plain decimal text |
| Cells.BlankBecomesNan | main.py:87-88 | a blank cell is cleaned to the category "Nan" |
| LexOrder.LexLessIrreflexive | main.py:105-108 | no label sorts before itself in the crosstab's axis order |
| LexOrder.LexLessTransitive | main.py:105-108 | the axis order is transitive |
| LexOrder.LexLessTotal | main.py:105-108 | any two different labels are ordered one way or the other |
| LexOrder.LexLessAsymmetric | main.py:105-108 | two labels are never ordered both ways |
| LexOrder.InsertKey | main.py:105-108 | inserting a label into a sorted label list keeps it strictly increasing and adds exactly that label |
| LexOrder.SortedKeys | main.py:105-108 | the labels of an axis are strictly increasing and are exactly the distinct values of the column |
| LexOrder.StrictlyIncreasingDistinct | main.py:105-108 | a strictly increasing label list has no repeats |
| Sheets.Dedup | main.py:62 | `drop_duplicates()`: no duplicates remain, every input row is kept, kept rows appear in order of first occurrence, and the result is no longer than the input |
| Sheets.DedupOfDistinct | main.py:62 | a frame without duplicate rows is unchanged |
| Sheets.Sheet.DropDuplicates | main.py:62 | the sheet's rows are replaced by their deduplication and the header is unchanged |
| Sheets.StripHeaders | main.py:63 | the header keeps its count and order, and each name is stripped |
| Sheets.Sheet.StripColumnNames | main.py:63 | the sheet's header is replaced by the stripped header and the rows are unchanged |
| Sheets.ColumnIndex | main.py:87-88 | `df[name]` finds the unique column called `name`. A missing name is `ColumnNotFound`, a name carried by two columns is `AmbiguousColumn`, each exactly when it happens |
| Sheets.NormalizeAt | main.py:87-88 | the selected column of every row is cleaned, every other cell is unchanged, and the shape is kept |
| Sheets.NormalizeAtIdempotent | main.py:87-88 | cleaning the same column twice leaves the sheet as one cleaning does |
| Sheets.NormalizedColumnText | main.py:87-88 | after cleaning, a column's text is the cleaned original text, and each value is a fixed point of the cleaning |
| Sheets.Sheet.NormalizeColumn | main.py:87-88 | in place: the result is the column lookup; on success only that column changes, to its cleaned form; on failure nothing changes |
| Loader.LowerIdempotent | main.py:35-44 | lower-casing a lower-cased name changes nothing |
| Loader.Dispatch | main.py:35-48 | CSV exactly when the lower-cased name ends in ".csv", legacy Excel exactly for ".xls", modern Excel exactly for ".xlsx", and unsupported exactly when none of these match |
| Loader.DispatchIgnoresCase | main.py:35-48 | the chosen reader does not depend on the case of the file name |
| Loader.Load | main.py:32-64 | an unknown extension gives `UnsupportedFormat` and a reader failure gives `ParseError` with its diagnostic. On success the header is stripped with the same count, and the rows are exactly `Dedup` of the parsed rows: each distinct row once, in the order of its first occurrence, none added and none lost |
| Loader.LoadWellShaped | main.py:62-63 | a loaded frame has one cell per column in every row |
| Loader.LoadData | main.py:32-64 | the method builds a fresh, well-formed `Sheet` whose header and rows are exactly `Load`'s result, or returns `Load`'s error |
| CrossTab.Crosstab | main.py:105-108 | `pd.crosstab`: rows are the distinct cleaned sources and columns the distinct cleaned confirmations, both in increasing order. Each cell is the number of records with that pair |
| CrossTab.CrosstabRowTotal | main.py:105-108 | a row's total is the number of records with that source, so it is at least 1 |
| CrossTab.CrosstabConservesCount | main.py:105-108 | all cells together add up to the number of records |
| CrossTab.CountOffDiagonal | main.py:105-108 | when every record has equal source and confirmation, no record counts for two different values |
| CrossTab.SameColumnIsDiagonal | main.py:105-108 | with the same column chosen twice, rows and columns carry the same labels and every cell off the diagonal is 0 |
| Ranking.Precedes | main.py:114 | the order of `sort_values("Total", ascending=False)`: a row stands above another only if its total is at least as large, and always when it is larger; equal totals go by increasing source label, the tie-break the model chooses (see "Left out") |
| Ranking.PrecedesConnected | main.py:112-114 | any two rows can be ordered: larger total first, equal totals by increasing source label |
| Ranking.PrecedesTransitive | main.py:112-114 | the ranking order is transitive |
| Ranking.Insert | main.py:112-114 | inserting a row into a ranked list keeps it ranked and adds exactly that row |
| Ranking.Sort | main.py:112-114 | the sorted rows are ranked and are a permutation of the input |
| Ranking.RowsOf | main.py:111 | `cross_tab.sum(axis=1)`: one row per table row, in table order, each with its label, its counts and the sum of those counts |
| Ranking.Rank | main.py:111-114 | the ranked rows are a permutation of the table's rows. Totals never increase, equal totals are in increasing source order, and each row's total is the sum of its counts |
| Ranking.Top | main.py:111-117 | the displayed table has the table's columns and `min(n, rows)` rows. Each row is a row of the table with its counts unchanged, and row sums never increase |
| Ranking.TopIsPrefix | main.py:112-117 | the displayed rows are the first `min(n, rows)` rows of the ranking |
| Ranking.TopKeepsLargest | main.py:112-117 | every row left out has a total no larger than any displayed row |
| Ranking.TopLabelsFrom | main.py:112-117 | the displayed table shows only labels of the table, under its columns |
| Ranking.TopOfFewRows | main.py:116 | when `n` is at least the number of rows, every source is displayed |
| Ranking.SortGrandTotal | main.py:112-114 | sorting leaves the sum of all counts unchanged |
| Ranking.RankGrandTotal | main.py:111-114 | ranking the rows keeps the sum of all counts |
| Ranking.TopGrandTotal | main.py:112-117 | the displayed counts add up to at most the table's, and to exactly the table's when nothing is cut |
| TotalColumn.WithTotal | main.py:111 | `cross_tab["Total"] = cross_tab.sum(axis=1)`: the row labels are kept. A "Total" column is appended, or an existing one is overwritten, with each row's sum of its original counts, and every other cell is unchanged |
| TotalColumn.WithTotalDistinct | main.py:111 | adding the "Total" column keeps the column labels distinct |
| TotalColumn.CountTable.InsertTotal | main.py:111 | in place: the table becomes `WithTotal` of what it was |
| TotalColumn.WithoutTotal | main.py:115 | `.drop(columns="Total")` on the header: exactly the other labels remain, and no label "Total" |
| TotalColumn.KeptPositions | main.py:115 | each label kept by the drop is the label at a position of the original header, and these positions strictly increase, so the kept columns stay in their original order |
| TotalColumn.KeepCountsAt | main.py:115 | in one row, each count kept by the drop is the count at that kept label's original position |
| TotalColumn.RankedByRowSum | main.py:111-114 | after line 111, the rows ranked by the "Total" column keep their labels, and each row's rank key is the full sum of its original counts, whether the column was appended or overwrote a "Total" category |
| TotalColumn.DropTotal | main.py:115 | dropping "Total" from a table keeps its row labels, leaves no "Total" column, keeps the table well-formed, and each kept cell is the cell under the same label at its original position |
| TotalColumn.SortDropHead | main.py:112-117 | on a table with its "Total" column: `min(n, rows)` rows are kept, and the header is the original one without "Total". Which rows are kept and their descending order are stated by `TotalColumn.AsWrittenIsTopWithoutTotal` |
| TotalColumn.AsWrittenTop | main.py:111-117 | the lines as written: `min(n, rows)` rows and no "Total" column; the result equals `DropTotal(Top(f, n))` (`TotalColumn.AsWrittenIsTopWithoutTotal`) |
| TotalColumn.SortedAsWritten | main.py:111-115 | sorting by the inserted "Total" column and dropping it gives the ranking of `Ranking.Rank` with "Total" dropped, under the same header |
| TotalColumn.ProjectSort | main.py:114-115 | dropping the "Total" column before or after the sort gives the same rows |
| TotalColumn.AsWrittenIsTopWithoutTotal | main.py:111-117 | the lines as written give `Ranking.Top` with any "Total" category's column removed |
| TotalColumn.AsWrittenAgreesWithoutTotalCategory | main.py:111-117 | when no confirmation value is "Total", the lines as written give exactly `Ranking.Top` |
| TotalColumn.TotalCategoryIsLost | main.py:111-117 | the answer "total" is cleaned to "Total". For that one record from "Online", the crosstab has the column "Total", the lines as written return a table with no columns, and `Ranking.Top` keeps the column |
| Dashboard.Observations | main.py:105-108 | the (source, confirmation) text of each row, in order |
| Dashboard.CleanRows | main.py:87-88 | cleaning both selected columns keeps the shape of the sheet |
| Dashboard.Report | main.py:105-117 | the displayed table is well-formed and has at most `topN` rows |
| Dashboard.Analyse | main.py:32-117 | a whole run: a load error stops it with that error; a missing or ambiguous source column stops it with exactly the error `ColumnIndex` reports for it; once the source column is found, a missing or ambiguous confirm column stops it with that column's error (`ColumnNotFound(confirmColumn)` when it is absent); a column error names one of the two selected columns; a displayed table comes from a loaded sheet holding both columns, is well-formed and has at most `topN` rows |
| Dashboard.AnalyseSucceeds | main.py:32-117 | a run whose sheet loads and whose two columns are found displays exactly `Report` of that sheet and those columns |
| Dashboard.Run | main.py:32-117 | a whole run, with the sheet changed in place, returns what `Analyse` computes, with the corrected ranking of `Ranking.Top`. A successful run shows at most 30 rows |
| Dashboard.ObservationAt | main.py:87-108 | for two different selected columns, each pair handed to the crosstab is the cleaned text of that row's two cells |
| Dashboard.AsWrittenReport | main.py:105-117 | the table lines 105-117 display as written never has a "Total" column |
| Dashboard.AsWrittenReportDropsTotal | main.py:105-117 | the table displayed as written is the corrected `Report` with the "Total" category's column removed, the rows and their order being the same |
| Dashboard.AsWrittenReportAgrees | main.py:105-117 | when no cleaned confirmation value is "Total", the table displayed as written is exactly `Report` |
| Dashboard.NoTotalColumn | main.py:105-111 | when no observation's confirmation is "Total", the crosstab has no "Total" column, so line 111 appends one |
| Dashboard.ObservationsAreClean | main.py:87-88 | every pair handed to the crosstab is a fixed point of the cleaning |
| Dashboard.CleanPairsCleanLabels | main.py:105-117 | a crosstab of cleaned pairs only ever shows cleaned labels from the data |
| Dashboard.ReportShape | main.py:105-117 | the displayed table has `min(topN, distinct sources)` rows. Its columns are exactly the distinct cleaned confirmations in increasing order, without "Total", and row totals never increase |
| Dashboard.ReportLabelsAreClean | main.py:87-117 | every displayed row label is a cleaned source of the sheet, and every column label a cleaned confirmation |
| Dashboard.ReportConservesRows | main.py:62-117 | the displayed counts add up to at most the number of rows left after removing duplicates, and to exactly that number when there are at most `topN` distinct sources |
| Dashboard.NoRecordsNoRows | main.py:105-117 | a sheet with no records gives an empty table, not an error |
| Dashboard.SameColumnOnlyDiagonal | main.py:76-117 | when the same column is chosen twice, every displayed count whose row and column labels differ is 0 |
| Scenario.WorkbookName | main.py:35-44 | "leads.xlsx" is read as a modern Excel workbook |
| Scenario.HeaderIsClean | main.py:63 | the example sheet's header "Source", "Confirmed" is unchanged by the strip |
| Scenario.RowsAreDistinct | main.py:62 | the example sheet's three rows differ, so no row is dropped as a duplicate |
| Scenario.SheetLoads | main.py:32-64 | loading "leads.xlsx" gives the example sheet unchanged |
| Scenario.SelectedColumns | main.py:76-88 | "Source" is found as the first column and "Confirmed" as the second |
| Scenario.ReaderWellShaped | main.py:37-44 | the example reader only returns the rectangular sheet |
| Scenario.CleanedSource | main.py:87 | "online" is cleaned to "Online" |
| Scenario.CleanedAnswer | main.py:88 | "YES" and "Yes" are both cleaned to "Yes" |
| Scenario.CleanedLowerAnswer | main.py:88 | "yes" is cleaned to "Yes" |
| Scenario.CleanedAsGiven | main.py:87-88 | "Online", "Referral" and "No" are left as they are |
| Scenario.FirstLead | main.py:87-88 | the first lead ("online", "yes") becomes (Online, Yes) |
| Scenario.SecondLead | main.py:87-88 | the second lead ("Online", "No") stays (Online, No) |
| Scenario.ThirdLead | main.py:87-88 | the third lead ("Referral", "YES") becomes (Referral, Yes) |
| Scenario.SheetObservations | main.py:87-108 | cleaning the example sheet's two columns yields the pairs (Online, Yes), (Online, No) and (Referral, Yes) |
| Scenario.PairTable | main.py:105-108 | the cleaned pairs (Online, Yes), (Online, No) and (Referral, Yes) give rows Online and Referral, columns No and Yes, and counts [[1, 1], [0, 1]] |
| Scenario.TableRanking | main.py:111-114 | Online (total 2) ranks before Referral (total 1) |
| Scenario.TableTop | main.py:111-117 | with the slider at 5, both sources are shown in that order |
| Scenario.ExampleTable | main.py:105-117 | the example's displayed table is exactly the one above |
| Scenario.ExampleRunReports | main.py:32-117 | the example run gets past loading and column selection and displays `Report` of the sheet |
| Scenario.ExampleRun | main.py:32-117 | the whole run on "leads.xlsx", selecting "Source" and "Confirmed" with the slider at 5, displays rows Online and Referral, columns No and Yes, and counts [[1, 1], [0, 1]] |
| Scenario.ExampleReport | main.py:87-117 | for the example sheet with the slider at 5, the displayed table has rows Online and Referral, columns No and Yes, and counts [[1, 1], [0, 1]] |

## Left out

- The Streamlit user interface is outside the model. This covers the page set-up, the messages, the sidebar widgets, the stop when no file is uploaded (lines 25-27), and the rendering of the table. The two selected column names and the slider value are parameters of `Dashboard.Analyse` and `Dashboard.Run`. The slider's bounds appear only as the requirement `5 <= topN <= 30` on `Run`.
- The file readers (`pd.read_csv`, and `pd.read_excel` with xlrd or openpyxl) are outside the model. They are a parameter mapping the chosen format to a parsed grid or a diagnostic. Any exception they raise is that diagnostic, as `except Exception` catches it. The unsupported-format stop is not caught there, because `st.stop()` raises an exception outside the `Exception` hierarchy. It is modelled as its own `UnsupportedFormat` error.
- The two bar charts (lines 128-173) and the random preview sample (lines 178-179) are outside the model. The charts only draw the table, and the sample depends on randomness.
- Cell values are text, integers, booleans or blank. Floating-point cells are outside the model, and so are dates and other pandas types. So are headers that are not strings, where `df.columns.str.strip()` would produce NaN.
- Characters outside ASCII are treated as uncased non-space characters. Unicode case mapping and Unicode whitespace are outside the model.
- TotalColumn.SortDropHead: its own contract gives only the shape of the result (the row count and the header without "Total"). Which rows are kept and that their totals never increase follow from `TotalColumn.AsWrittenIsTopWithoutTotal`, which shows that `AsWrittenTop` (the sort, drop and head on the table with its "Total" column) equals `DropTotal(Top(f, n))`.
- Ranking.Sort: the model breaks ties between equal totals by increasing source label. That is a stable sort over the crosstab's sorted row labels. pandas' default `sort_values` is not stable, so its order among equal totals is not specified.
- Sheets.ColumnIndex: a selected column name shared by two columns is modelled as the error `AmbiguousColumn`. In pandas, `df[name]` then selects a frame, and `.str` fails on it. A description that only names a missing-column error covers less than what the code does.
- LexOrder.SortedKeys: the crosstab's row and column labels are in increasing order, as pandas sorts the group keys. A description that allows first-appearance order differs from what the code does.
- Dashboard.Run: the run, `Dashboard.Analyse` and every `Dashboard.Report` lemma use the corrected ranking of the "Findings" row, which keeps a confirmation category cleaned to "Total". The table the lines display as written is `Dashboard.AsWrittenReport`. `Dashboard.AsWrittenReportDropsTotal` and `Dashboard.AsWrittenReportAgrees` relate the two: they differ only by that column.
- Cells.NumberSurvivesNormalize: an integer cell is cleaned to its plain decimal text. pandas reads an integer column that also holds a blank as floating point, and `astype(str)` then gives "1.0", not "1". The model keeps integer cells as integers whatever else the column holds, so for such columns the cleaned text differs. Column-wide type promotion is outside the model.

## Findings

| source | as written | input that shows it | evidently intended | confidence | as-written member | corrected member |
|---|---|---|---|---|---|---|
| main.py:111-117 | The row totals go into the crosstab as a column named "Total". If a cleaned confirmation value is itself "Total", line 111 overwrites that category's counts, and line 115 then drops the category from the displayed table | one record with source "Online" and confirmation "total"; the crosstab has the column "Total", and the displayed table has no columns | rank by the row totals while keeping every confirmation category, so the columns are exactly the distinct cleaned confirmations | not executed | TotalColumn.TotalCategoryIsLost | Ranking.Top |

=== FILE: cells.dfy ===
/**
 * Cell values of a loaded sheet and their conversion to text (`astype(str)`), followed by
 * the clean-up the dashboard applies to the two selected columns.
 */
module Cells {
  import opened Text

  /** A spreadsheet cell: text, an integer, a boolean, or a blank (NaN in pandas). */
  datatype Cell = Str(s: string) | Num(n: int) | Flag(b: bool) | Missing

  function DigitChar(d: nat): (c: char)
    requires d < 10
    ensures '0' <= c <= '9'
  {
    ('0' as int + d) as char
  }

  /** The decimal digits of `n`, most significant first, with no leading zero. */
  function Digits(n: nat): (r: string)
    ensures r != []
    ensures forall k :: 0 <= k < |r| ==> '0' <= r[k] <= '9'
    ensures |r| > 1 ==> r[0] != '0'
    decreases n
  {
    if n < 10 then [DigitChar(n)] else Digits(n / 10) + [DigitChar(n % 10)]
  }

  /** `str(n)` for a Python integer. */
  function Decimal(n: int): (r: string)
    ensures r != [] && (r[0] == '-' <==> n < 0)
    ensures forall k :: 0 < k < |r| ==> '0' <= r[k] <= '9'
    ensures n >= 0 ==> '0' <= r[0] <= '9'
    ensures n >= 0 && |r| > 1 ==> r[0] != '0'
    ensures n < 0 ==> |r| > 1 && r[1] != '0'
  {
    assert n < 0 ==> ("-" + Digits(-n))[1..] == Digits(-n);
    if n < 0 then "-" + Digits(-n) else Digits(n)
  }

  /** The number a string of decimal digits denotes, most significant digit first. */
  function DigitsValue(s: string): nat
    requires forall k :: 0 <= k < |s| ==> '0' <= s[k] <= '9'
  {
    if s == [] then 0
    else DigitsValue(s[..|s| - 1]) * 10 + (s[|s| - 1] as int - '0' as int)
  }

  /** The digits of `n` denote `n`. */
  lemma {:induction false} DigitsDenote(n: nat)
    ensures DigitsValue(Digits(n)) == n
    decreases n
  {
    var d := Digits(n);
    if n < 10 {
      assert d[..0] == [];
    } else {
      DigitsDenote(n / 10);
      assert d[..|d| - 1] == Digits(n / 10);
    }
  }

  /** `str(n)` denotes `n`: its digits, after the sign when there is one, spell `|n|`. */
  lemma {:induction false} DecimalDenotes(n: int)
    ensures n >= 0 ==> DigitsValue(Decimal(n)) == n
    ensures n < 0 ==> Decimal(n)[0] == '-' && DigitsValue(Decimal(n)[1..]) == -n
  {
    if n < 0 {
      DigitsDenote(-n);
      assert Decimal(n)[1..] == Digits(-n);
    } else {
      DigitsDenote(n);
    }
  }

  /** Different integers give different text, so they stay different categories. */
  lemma DecimalInjective(a: int, b: int)
    requires Decimal(a) == Decimal(b)
    ensures a == b
  {
    DecimalDenotes(a);
    DecimalDenotes(b);
  }

  /** `str(v)` as `astype(str)` produces it; a blank cell becomes the text "nan". */
  function ToStr(c: Cell): (r: string)
    ensures c.Str? ==> r == c.s
    ensures c.Num? ==> r != [] && (r[0] == '-' <==> c.n < 0)
    ensures c.Num? ==> forall k :: 0 < k < |r| ==> '0' <= r[k] <= '9'
    ensures c.Num? && c.n >= 0 ==> '0' <= r[0] <= '9'
    ensures c.Num? && c.n >= 0 && |r| > 1 ==> r[0] != '0'
    ensures c.Num? && c.n < 0 ==> |r| > 1 && r[1] != '0'
    ensures c.Num? && c.n >= 0 ==> DigitsValue(r) == c.n
    ensures c.Num? && c.n < 0 ==> r[0] == '-' && DigitsValue(r[1..]) == -c.n
    ensures c.Flag? ==> r == (if c.b then "True" else "False")
    ensures c.Missing? ==> r == "nan"
  {
    match c
    case Str(s) => s
    case Num(n) => DecimalDenotes(n); Decimal(n)
    case Flag(b) => if b then "True" else "False"
    case Missing => "nan"
  }

  /** One cell of a selected column after `astype(str).str.strip().str.title()`. */
  function NormalizeCell(c: Cell): (r: Cell)
    ensures r.Str? && IsStripped(r.s)
  {
    NormalizeIdempotent(ToStr(c));
    Str(Normalize(ToStr(c)))
  }

  /** Cleaning a column twice is the same as cleaning it once. */
  lemma {:induction false} NormalizeCellIdempotent(c: Cell)
    ensures NormalizeCell(NormalizeCell(c)) == NormalizeCell(c)
  {
    NormalizeIdempotent(ToStr(c));
  }

  /** Integer labels come through the clean-up as their plain decimal form. */
  lemma {:induction false} NumberSurvivesNormalize(n: int)
    ensures NormalizeCell(Num(n)) == Str(Decimal(n))
  {
    var d := Decimal(n);
    forall k | 0 <= k < |d|
      ensures !IsLetter(d[k]) && !IsSpace(d[k])
    {
      assert k == 0 || '0' <= d[k] <= '9';
    }
    StripKeepsStripped(d);
    var t := Title(d);
    assert t == d by {
      assert |t| == |d|;
      assert forall k :: 0 <= k < |d| ==> t[k] == d[k];
    }
  }

  /** A blank cell ends up as the category "Nan". */
  lemma BlankBecomesNan()
    ensures NormalizeCell(Missing) == Str("Nan")
  {
    StripKeepsStripped("nan");
    assert Title("nan") == "Nan" by {
      assert TitleFrom("nan", false) == "Nan";
    }
  }
}

=== FILE: crosstab.dfy ===
/**
 * `pd.crosstab(df[SOURCE_COL], df[CONFIRM_COL])`: one row per distinct source value, one
 * column per distinct confirmation value, both in increasing order as pandas sorts its
 * group keys, and in each cell the number of rows carrying that pair of values.
 */
module CrossTab {
  import opened LexOrder
  import opened Sheets

  /** A table of counts with row labels (`index`) and column labels. */
  datatype Frame = Frame(index: seq<string>, columns: seq<string>, cells: seq<seq<nat>>)

  /** One row of counts per row label, one count per column label. */
  predicate Shaped(f: Frame) {
    && |f.cells| == |f.index|
    && forall i :: 0 <= i < |f.cells| ==> |f.cells[i]| == |f.columns|
  }

  lemma IncreasingIsDistinct(s: seq<string>)
    requires StrictlyIncreasing(s)
    ensures NoDuplicates(s)
  {
    forall i, j | 0 <= i < j < |s|
      ensures s[i] != s[j]
    {
      StrictlyIncreasingDistinct(s, i, j);
    }
  }

  /** A (source value, confirmation value) observation: one row of the two cleaned columns. */
  type Pair = (string, string)

  function Sources(ps: seq<Pair>): (r: seq<string>)
    ensures |r| == |ps| && forall k :: 0 <= k < |ps| ==> r[k] == ps[k].0
  {
    seq(|ps|, k requires 0 <= k < |ps| => ps[k].0)
  }

  function Confirms(ps: seq<Pair>): (r: seq<string>)
    ensures |r| == |ps| && forall k :: 0 <= k < |ps| ==> r[k] == ps[k].1
  {
    seq(|ps|, k requires 0 <= k < |ps| => ps[k].1)
  }

  /** How many times `x` occurs in `xs`. */
  function Occ(xs: seq<string>, x: string): nat {
    if xs == [] then 0 else (if xs[0] == x then 1 else 0) + Occ(xs[1..], x)
  }

  lemma {:induction false} OccPositive(xs: seq<string>, x: string)
    ensures Occ(xs, x) > 0 <==> x in xs
  {
    if xs != [] {
      OccPositive(xs[1..], x);
      assert xs == [xs[0]] + xs[1..];
    }
  }

  /** The number of observations equal to `(s, c)`. */
  function Count(ps: seq<Pair>, s: string, c: string): nat {
    if ps == [] then 0 else (if ps[0] == (s, c) then 1 else 0) + Count(ps[1..], s, c)
  }

  /** The confirmation values of the observations whose source value is `s`, in order. */
  function ConfirmsOf(ps: seq<Pair>, s: string): (r: seq<string>)
    ensures forall c :: c in r ==> c in Confirms(ps)
  {
    if ps == [] then []
    else
      var rest := ConfirmsOf(ps[1..], s);
      assert forall c :: c in Confirms(ps[1..]) ==> c in Confirms(ps) by {
        assert Confirms(ps[1..]) == Confirms(ps)[1..];
      }
      if ps[0].0 == s then [ps[0].1] + rest else rest
  }

  lemma {:induction false} ConfirmsOfCounts(ps: seq<Pair>, s: string, c: string)
    ensures Occ(ConfirmsOf(ps, s), c) == Count(ps, s, c)
    ensures |ConfirmsOf(ps, s)| == Occ(Sources(ps), s)
  {
    if ps != [] {
      ConfirmsOfCounts(ps[1..], s, c);
      assert Sources(ps[1..]) == Sources(ps)[1..];
    }
  }

  function Sum(s: seq<nat>): nat {
    if s == [] then 0 else s[0] + Sum(s[1..])
  }

  /** The sum of every cell of a table. */
  function GrandTotal(cells: seq<seq<nat>>): nat {
    if cells == [] then 0 else Sum(cells[0]) + GrandTotal(cells[1..])
  }

  /** For each label of `keys`, how many times it occurs in `xs`. */
  function Tally(keys: seq<string>, xs: seq<string>): (r: seq<nat>)
    ensures |r| == |keys|
    ensures forall j :: 0 <= j < |keys| ==> r[j] == Occ(xs, keys[j])
  {
    if keys == [] then [] else [Occ(xs, keys[0])] + Tally(keys[1..], xs)
  }

  lemma {:induction false} TallyPrepend(keys: seq<string>, x: string, xs: seq<string>)
    requires NoDuplicates(keys)
    ensures Sum(Tally(keys, [x] + xs)) == (if x in keys then 1 else 0) + Sum(Tally(keys, xs))
  {
    if keys != [] {
      assert ([x] + xs)[1..] == xs;
      TallyPrepend(keys[1..], x, xs);
      assert x in keys <==> x == keys[0] || x in keys[1..] by {
        assert keys == [keys[0]] + keys[1..];
      }
      if x == keys[0] {
        assert x !in keys[1..];
      }
    }
  }

  /** Tallying a list over distinct labels that cover it accounts for every element once. */
  lemma {:induction false} TallyCoversAll(keys: seq<string>, xs: seq<string>)
    requires NoDuplicates(keys)
    requires forall x :: x in xs ==> x in keys
    ensures Sum(Tally(keys, xs)) == |xs|
  {
    if xs == [] {
      TallyOfNothing(keys);
    } else {
      assert xs == [xs[0]] + xs[1..];
      TallyPrepend(keys, xs[0], xs[1..]);
      TallyCoversAll(keys, xs[1..]);
    }
  }

  lemma {:induction false} TallyOfNothing(keys: seq<string>)
    ensures Sum(Tally(keys, [])) == 0
  {
    if keys != [] {
      TallyOfNothing(keys[1..]);
    }
  }

  /** The count rows of the cross-tabulation, one per row label. */
  function CountRows(index: seq<string>, columns: seq<string>, ps: seq<Pair>): (r: seq<seq<nat>>)
    ensures |r| == |index|
    ensures forall i :: 0 <= i < |index| ==> r[i] == Tally(columns, ConfirmsOf(ps, index[i]))
    ensures forall i :: 0 <= i < |index| ==> |r[i]| == |columns|
    ensures forall i, j :: 0 <= i < |index| && 0 <= j < |columns| ==> r[i][j] == Count(ps, index[i], columns[j])
  {
    if index == [] then []
    else
      var row := Tally(columns, ConfirmsOf(ps, index[0]));
      forall j | 0 <= j < |columns| ensures row[j] == Count(ps, index[0], columns[j]) {
        ConfirmsOfCounts(ps, index[0], columns[j]);
      }
      [row] + CountRows(index[1..], columns, ps)
  }

  /**
   * `pd.crosstab` of the two cleaned columns: rows are the distinct source values in
   * increasing order, columns the distinct confirmation values in increasing order, and
   * each cell the number of observations with that row's source and that column's
   * confirmation.
   */
  function Crosstab(ps: seq<Pair>): (f: Frame)
    ensures Shaped(f)
    ensures StrictlyIncreasing(f.index) && StrictlyIncreasing(f.columns)
    ensures forall s :: s in f.index <==> s in Sources(ps)
    ensures forall c :: c in f.columns <==> c in Confirms(ps)
    ensures forall i, j :: 0 <= i < |f.index| && 0 <= j < |f.columns| ==>
              f.cells[i][j] == Count(ps, f.index[i], f.columns[j])
  {
    var index := SortedKeys(Sources(ps));
    var columns := SortedKeys(Confirms(ps));
    Frame(index, columns, CountRows(index, columns, ps))
  }

  /** A row's total is the number of observations with that row's source value. */
  lemma {:induction false} CrosstabRowTotal(ps: seq<Pair>, i: nat)
    requires i < |Crosstab(ps).index|
    ensures Sum(Crosstab(ps).cells[i]) == Occ(Sources(ps), Crosstab(ps).index[i])
    ensures Sum(Crosstab(ps).cells[i]) >= 1
  {
    var f := Crosstab(ps);
    var s := f.index[i];
    IncreasingIsDistinct(f.columns);
    TallyCoversAll(f.columns, ConfirmsOf(ps, s));
    ConfirmsOfCounts(ps, s, s);
    OccPositive(Sources(ps), s);
  }

  lemma {:induction false} GrandTotalOfRows(index: seq<string>, columns: seq<string>, ps: seq<Pair>)
    requires NoDuplicates(columns)
    requires forall c :: c in Confirms(ps) ==> c in columns
    ensures GrandTotal(CountRows(index, columns, ps)) == Sum(Tally(index, Sources(ps)))
  {
    if index != [] {
      var s := index[0];
      TallyCoversAll(columns, ConfirmsOf(ps, s));
      ConfirmsOfCounts(ps, s, s);
      GrandTotalOfRows(index[1..], columns, ps);
      assert CountRows(index, columns, ps)[1..] == CountRows(index[1..], columns, ps);
    }
  }

  /** Counts are conserved: the cells of the cross-tabulation add up to the number of rows. */
  lemma {:induction false} CrosstabConservesCount(ps: seq<Pair>)
    ensures GrandTotal(Crosstab(ps).cells) == |ps|
  {
    var f := Crosstab(ps);
    IncreasingIsDistinct(f.index);
    IncreasingIsDistinct(f.columns);
    GrandTotalOfRows(f.index, f.columns, ps);
    TallyCoversAll(f.index, Sources(ps));
  }

  lemma {:induction false} CountOffDiagonal(ps: seq<Pair>, s: string, c: string)
    requires forall k :: 0 <= k < |ps| ==> ps[k].0 == ps[k].1
    requires s != c
    ensures Count(ps, s, c) == 0
  {
    if ps != [] {
      CountOffDiagonal(ps[1..], s, c);
    }
  }

  /**
   * When the same column is chosen for source and confirmation, every observation is a
   * pair of equal values: rows and columns carry the same labels and only the diagonal
   * holds non-zero counts.
   */
  lemma {:induction false} SameColumnIsDiagonal(ps: seq<Pair>)
    requires forall k :: 0 <= k < |ps| ==> ps[k].0 == ps[k].1
    ensures Crosstab(ps).index == Crosstab(ps).columns
    ensures forall i, j :: 0 <= i < |Crosstab(ps).index| && 0 <= j < |Crosstab(ps).columns| && i != j ==>
              Crosstab(ps).cells[i][j] == 0
  {
    var f := Crosstab(ps);
    SameColumnSameKeys(ps);
    IncreasingIsDistinct(f.index);
    OffDiagonalZero(ps, f.index, f.cells);
  }

  lemma OffDiagonalZero(ps: seq<Pair>, labels: seq<string>, cells: seq<seq<nat>>)
    requires forall k :: 0 <= k < |ps| ==> ps[k].0 == ps[k].1
    requires NoDuplicates(labels)
    requires |cells| == |labels| && forall i :: 0 <= i < |labels| ==> |cells[i]| == |labels|
    requires forall i, j :: 0 <= i < |labels| && 0 <= j < |labels| ==> cells[i][j] == Count(ps, labels[i], labels[j])
    ensures forall i, j :: 0 <= i < |labels| && 0 <= j < |labels| && i != j ==> cells[i][j] == 0
  {
    forall i, j | 0 <= i < |labels| && 0 <= j < |labels| && i != j
      ensures cells[i][j] == 0
    {
      assert labels[i] != labels[j] by {
        if i < j {
          assert labels[i] != labels[j];
        } else {
          assert labels[j] != labels[i];
        }
      }
      CountOffDiagonal(ps, labels[i], labels[j]);
    }
  }

  lemma SameColumnSameKeys(ps: seq<Pair>)
    requires forall k :: 0 <= k < |ps| ==> ps[k].0 == ps[k].1
    ensures Crosstab(ps).index == Crosstab(ps).columns
  {
    assert Sources(ps) == Confirms(ps);
  }
}

=== FILE: dashboard.dfy ===
/**
 * One run of the admission-source dashboard, from the uploaded file to the table it
 * displays: load and clean the sheet, clean the two selected columns in place,
 * cross-tabulate them, rank the sources by their totals and keep the first `TOP_N`.
 */
module Dashboard {
  import opened Wrappers
  import opened Text
  import opened Cells
  import opened Sheets
  import opened Loader
  import opened LexOrder
  import opened CrossTab
  import opened Ranking
  import opened TotalColumn

  /** The bounds of the "Show Top N Admission Sources" slider. */
  const MIN_TOP_N: nat := 5
  const MAX_TOP_N: nat := 30

  /** Why a run stops before the table is shown. */
  datatype Failure = LoadFailed(load: LoadError) | ColumnFailed(column: ColumnError)

  /** The (source, confirmation) text of every row. */
  function Observations(rows: seq<seq<Cell>>, source: nat, confirm: nat): (r: seq<Pair>)
    requires forall i :: 0 <= i < |rows| ==> source < |rows[i]| && confirm < |rows[i]|
    ensures |r| == |rows|
    ensures forall i :: 0 <= i < |rows| ==> r[i] == (ToStr(rows[i][source]), ToStr(rows[i][confirm]))
  {
    seq(|rows|, i requires 0 <= i < |rows| => (ToStr(rows[i][source]), ToStr(rows[i][confirm])))
  }

  /** The rows after cleaning the source column and then the confirmation column. */
  function CleanRows(rows: seq<seq<Cell>>, source: nat, confirm: nat): (r: seq<seq<Cell>>)
    requires forall i :: 0 <= i < |rows| ==> source < |rows[i]| && confirm < |rows[i]|
    ensures |r| == |rows|
    ensures forall i :: 0 <= i < |rows| ==> |r[i]| == |rows[i]|
  {
    NormalizeAt(NormalizeAt(rows, source), confirm)
  }

  /**
   * A whole run as a function of its inputs: the file name, the readers, the two selected
   * column names and the slider value. The result is the displayed table, or the error
   * that stopped the run: the load's, or a missing or ambiguous column (source first).
   */
  function Analyse(fileName: string, parse: Format -> Result<Grid, string>,
                   sourceColumn: string, confirmColumn: string, topN: nat): (r: Result<Frame, Failure>)
    requires forall f: Format :: parse(f).Ok? ==> WellShaped(parse(f).value)
    ensures Load(fileName, parse).Err? ==> r == Err(LoadFailed(Load(fileName, parse).error))
    ensures Load(fileName, parse).Ok? && sourceColumn !in Load(fileName, parse).value.columns ==>
              r == Err(ColumnFailed(ColumnNotFound(sourceColumn)))
    ensures Load(fileName, parse).Ok? && ColumnIndex(Load(fileName, parse).value.columns, sourceColumn).Err? ==>
              r == Err(ColumnFailed(ColumnIndex(Load(fileName, parse).value.columns, sourceColumn).error))
    ensures Load(fileName, parse).Ok? && ColumnIndex(Load(fileName, parse).value.columns, sourceColumn).Ok? &&
            ColumnIndex(Load(fileName, parse).value.columns, confirmColumn).Err? ==>
              r == Err(ColumnFailed(ColumnIndex(Load(fileName, parse).value.columns, confirmColumn).error))
    ensures Load(fileName, parse).Ok? && ColumnIndex(Load(fileName, parse).value.columns, sourceColumn).Ok? &&
            confirmColumn !in Load(fileName, parse).value.columns ==>
              r == Err(ColumnFailed(ColumnNotFound(confirmColumn)))
    ensures r.Err? && r.error.ColumnFailed? ==>
              r.error.column.name == sourceColumn || r.error.column.name == confirmColumn
    ensures r.Ok? ==> Load(fileName, parse).Ok? && Shaped(r.value) && |r.value.index| <= topN
    ensures r.Ok? ==> sourceColumn in Load(fileName, parse).value.columns &&
                      confirmColumn in Load(fileName, parse).value.columns
  {
    LoadWellShaped(fileName, parse);
    match Load(fileName, parse)
    case Err(e) => Err(LoadFailed(e))
    case Ok(g) =>
      match ColumnIndex(g.columns, sourceColumn)
      case Err(e) => Err(ColumnFailed(e))
      case Ok(source) =>
        match ColumnIndex(g.columns, confirmColumn)
        case Err(e) => Err(ColumnFailed(e))
        case Ok(confirm) =>
          Ok(Report(g, source, confirm, topN))
  }

  /** A run whose sheet loads and whose two columns are found displays `Report`. */
  lemma AnalyseSucceeds(fileName: string, parse: Format -> Result<Grid, string>,
                        sourceColumn: string, confirmColumn: string, topN: nat,
                        g: Grid, source: nat, confirm: nat)
    requires forall f: Format :: parse(f).Ok? ==> WellShaped(parse(f).value)
    requires Load(fileName, parse) == Ok(g)
    requires ColumnIndex(g.columns, sourceColumn) == Ok(source)
    requires ColumnIndex(g.columns, confirmColumn) == Ok(confirm)
    ensures WellShaped(g) && source < |g.columns| && confirm < |g.columns|
    ensures Analyse(fileName, parse, sourceColumn, confirmColumn, topN) == Ok(Report(g, source, confirm, topN))
  {
    LoadWellShaped(fileName, parse);
  }

  /** The script's main path, with the sheet cleaned in place as the source does it. */
  method Run(fileName: string, parse: Format -> Result<Grid, string>,
             sourceColumn: string, confirmColumn: string, topN: nat)
    returns (r: Result<Frame, Failure>)
    requires forall f: Format :: parse(f).Ok? ==> WellShaped(parse(f).value)
    requires MIN_TOP_N <= topN <= MAX_TOP_N
    ensures r == Analyse(fileName, parse, sourceColumn, confirmColumn, topN)
    ensures r.Ok? ==> |r.value.index| <= MAX_TOP_N
  {
    var loaded := LoadData(fileName, parse);
    if loaded.Err? {
      return Err(LoadFailed(loaded.error));
    }
    var sheet := loaded.value;
    var source := sheet.NormalizeColumn(sourceColumn);
    if source.Err? {
      return Err(ColumnFailed(source.error));
    }
    var confirm := sheet.NormalizeColumn(confirmColumn);
    if confirm.Err? {
      return Err(ColumnFailed(confirm.error));
    }
    var crossTab := Crosstab(Observations(sheet.rows, source.value, confirm.value));
    r := Ok(Top(crossTab, topN));
    assert r.value == Report(Load(fileName, parse).value, source.value, confirm.value, topN);
  }

  /** The observations a successful run cross-tabulates. */
  function RunObservations(g: Grid, source: nat, confirm: nat): (r: seq<Pair>)
    requires WellShaped(g) && source < |g.columns| && confirm < |g.columns|
    ensures |r| == |g.rows|
  {
    Observations(CleanRows(g.rows, source, confirm), source, confirm)
  }

  /** Each observation is the cleaned text of the row's two selected cells. */
  lemma ObservationAt(g: Grid, source: nat, confirm: nat, k: nat)
    requires WellShaped(g) && source < |g.columns| && confirm < |g.columns| && k < |g.rows|
    requires source != confirm
    ensures RunObservations(g, source, confirm)[k] ==
              (Normalize(ToStr(g.rows[k][source])), Normalize(ToStr(g.rows[k][confirm])))
  {
  }

  /** The table displayed for a loaded sheet and the positions of the two selected columns. */
  function Report(g: Grid, source: nat, confirm: nat, topN: nat): (r: Frame)
    requires WellShaped(g) && source < |g.columns| && confirm < |g.columns|
    ensures Shaped(r) && |r.index| <= topN
  {
    Top(Crosstab(RunObservations(g, source, confirm)), topN)
  }

  /**
   * The table lines 111-117 display as written: ranked like `Report`, but any column whose
   * cleaned confirmation value is "Total" is overwritten by the row totals and dropped.
   */
  function AsWrittenReport(g: Grid, source: nat, confirm: nat, topN: nat): (r: Frame)
    requires WellShaped(g) && source < |g.columns| && confirm < |g.columns|
    ensures TOTAL !in r.columns
  {
    var f := Crosstab(RunObservations(g, source, confirm));
    IncreasingIsDistinct(f.columns);
    AsWrittenIsTopWithoutTotal(f, topN);
    AsWrittenTop(f, topN)
  }

  /** The displayed table is the ranked table with the "Total" category's column removed. */
  lemma AsWrittenReportDropsTotal(g: Grid, source: nat, confirm: nat, topN: nat)
    requires WellShaped(g) && source < |g.columns| && confirm < |g.columns|
    ensures AsWrittenReport(g, source, confirm, topN) == DropTotal(Report(g, source, confirm, topN))
  {
    var f := Crosstab(RunObservations(g, source, confirm));
    IncreasingIsDistinct(f.columns);
    AsWrittenIsTopWithoutTotal(f, topN);
  }

  /** When no cleaned confirmation value is "Total", the displayed table is `Report`. */
  lemma AsWrittenReportAgrees(g: Grid, source: nat, confirm: nat, topN: nat)
    requires WellShaped(g) && source < |g.columns| && confirm < |g.columns|
    requires forall k :: 0 <= k < |g.rows| ==> RunObservations(g, source, confirm)[k].1 != TOTAL
    ensures AsWrittenReport(g, source, confirm, topN) == Report(g, source, confirm, topN)
  {
    var obs := RunObservations(g, source, confirm);
    NoTotalColumn(obs);
    var f := Crosstab(obs);
    IncreasingIsDistinct(f.columns);
    AsWrittenAgreesWithoutTotalCategory(f, topN);
  }

  lemma NoTotalColumn(ps: seq<Pair>)
    requires forall k :: 0 <= k < |ps| ==> ps[k].1 != TOTAL
    ensures TOTAL !in Crosstab(ps).columns
  {
    assert TOTAL !in Confirms(ps);
  }

  /** Both cleaned values of every row are fixed points of the clean-up. */
  lemma {:induction false} ObservationsAreClean(g: Grid, source: nat, confirm: nat)
    requires WellShaped(g) && source < |g.columns| && confirm < |g.columns|
    ensures Clean(RunObservations(g, source, confirm))
  {
    var once := NormalizeAt(g.rows, source);
    var obs := RunObservations(g, source, confirm);
    forall k | 0 <= k < |obs|
      ensures Normalize(obs[k].0) == obs[k].0 && Normalize(obs[k].1) == obs[k].1
    {
      NormalizeIdempotent(ToStr(once[k][confirm]));
      if source == confirm {
        NormalizeCellIdempotent(g.rows[k][source]);
      } else {
        NormalizeIdempotent(ToStr(g.rows[k][source]));
      }
    }
  }

  /** Every value of `ps` is already cleaned. */
  predicate Clean(ps: seq<Pair>)
  {
    forall k :: 0 <= k < |ps| ==> Normalize(ps[k].0) == ps[k].0 && Normalize(ps[k].1) == ps[k].1
  }

  /** Ranking a cross-tabulation of cleaned values only ever shows cleaned labels. */
  lemma {:induction false} CleanPairsCleanLabels(ps: seq<Pair>, n: nat)
    requires Clean(ps)
    ensures forall s :: s in Top(Crosstab(ps), n).index ==> s in Sources(ps) && Normalize(s) == s
    ensures forall c :: c in Top(Crosstab(ps), n).columns ==> c in Confirms(ps) && Normalize(c) == c
  {
    TopLabelsFrom(Crosstab(ps), n);
    CleanKeys(ps);
  }

  lemma CleanKeys(ps: seq<Pair>)
    requires Clean(ps)
    ensures forall s :: s in Sources(ps) ==> Normalize(s) == s
    ensures forall c :: c in Confirms(ps) ==> Normalize(c) == c
  {
    forall s | s in Sources(ps)
      ensures Normalize(s) == s
    {
      var p :| 0 <= p < |ps| && Sources(ps)[p] == s;
    }
    forall c | c in Confirms(ps)
      ensures Normalize(c) == c
    {
      var p :| 0 <= p < |ps| && Confirms(ps)[p] == c;
    }
  }

  /**
   * The displayed table has exactly `min(topN, distinct sources)` rows, its columns are
   * exactly the distinct cleaned confirmation values in ascending order (no helper column),
   * and totals never increase down the table.
   */
  lemma {:induction false} ReportShape(g: Grid, source: nat, confirm: nat, topN: nat)
    requires WellShaped(g) && source < |g.columns| && confirm < |g.columns|
    ensures var obs := RunObservations(g, source, confirm);
            var r := Report(g, source, confirm, topN);
            && |r.index| == Min(topN, |SortedKeys(Sources(obs))|)
            && (forall c :: c in r.columns <==> c in Confirms(obs))
            && StrictlyIncreasing(r.columns)
            && (forall i, j :: 0 <= i < j < |r.index| ==> Sum(r.cells[i]) >= Sum(r.cells[j]))
  {
  }

  /** Every label of the displayed table is a cleaned value from the sheet. */
  lemma {:induction false} ReportLabelsAreClean(g: Grid, source: nat, confirm: nat, topN: nat)
    requires WellShaped(g) && source < |g.columns| && confirm < |g.columns|
    ensures var obs := RunObservations(g, source, confirm);
            var r := Report(g, source, confirm, topN);
            && (forall s :: s in r.index ==> s in Sources(obs) && Normalize(s) == s)
            && (forall c :: c in r.columns ==> c in Confirms(obs) && Normalize(c) == c)
  {
    ObservationsAreClean(g, source, confirm);
    CleanPairsCleanLabels(RunObservations(g, source, confirm), topN);
  }

  /**
   * Counts are conserved end to end: the cells of the displayed table add up to no more
   * than the number of rows left after removing duplicates, and to exactly that number
   * when the slider admits every distinct source.
   */
  lemma {:induction false} ReportConservesRows(g: Grid, source: nat, confirm: nat, topN: nat)
    requires WellShaped(g) && source < |g.columns| && confirm < |g.columns|
    ensures GrandTotal(Report(g, source, confirm, topN).cells) <= |g.rows|
    ensures |SortedKeys(Sources(RunObservations(g, source, confirm)))| <= topN ==>
              GrandTotal(Report(g, source, confirm, topN).cells) == |g.rows|
  {
    var obs := RunObservations(g, source, confirm);
    CrosstabConservesCount(obs);
    TopGrandTotal(Crosstab(obs), topN);
  }

  /** A sheet with a header row and no records yields an empty table, not an error. */
  lemma {:induction false} NoRecordsNoRows(g: Grid, source: nat, confirm: nat, topN: nat)
    requires WellShaped(g) && source < |g.columns| && confirm < |g.columns| && g.rows == []
    ensures Report(g, source, confirm, topN) == Frame([], [], [])
  {
    assert RunObservations(g, source, confirm) == [];
    assert Crosstab([]) == Frame([], [], []);
  }

  /**
   * Choosing the same column for source and confirmation is accepted: every count off
   * the diagonal is zero.
   */
  lemma {:induction false} SameColumnOnlyDiagonal(g: Grid, column: nat, topN: nat)
    requires WellShaped(g) && column < |g.columns|
    ensures var r := Report(g, column, column, topN);
            forall i, j :: 0 <= i < |r.index| && 0 <= j < |r.columns| && r.index[i] != r.columns[j] ==>
              r.cells[i][j] == 0
  {
    var obs := RunObservations(g, column, column);
    SameColumnIsDiagonal(obs);
    TopKeepsDiagonal(Crosstab(obs), topN);
  }

  lemma TopKeepsDiagonal(f: Frame, n: nat)
    requires Shaped(f) && f.index == f.columns
    requires forall i, j :: 0 <= i < |f.index| && 0 <= j < |f.columns| && i != j ==> f.cells[i][j] == 0
    ensures var r := Top(f, n);
            forall i, j :: 0 <= i < |r.index| && 0 <= j < |r.columns| && r.index[i] != r.columns[j] ==>
              r.cells[i][j] == 0
  {
    var r := Top(f, n);
    forall i, j | 0 <= i < |r.index| && 0 <= j < |r.columns| && r.index[i] != r.columns[j]
      ensures r.cells[i][j] == 0
    {
      var p :| 0 <= p < |f.index| && f.index[p] == r.index[i] && f.cells[p] == r.cells[i];
    }
  }
}

=== FILE: lexorder.dfy ===
/**
 * Python's ordering of strings (character by character on code points, a proper prefix
 * first), and the sorted list of distinct values that pandas uses as the row and column
 * labels of a cross-tabulation.
 */
module LexOrder {

  /** `a < b` on Python strings. */
  predicate LexLess(a: string, b: string) {
    b != [] && (a == [] || a[0] < b[0] || (a[0] == b[0] && LexLess(a[1..], b[1..])))
  }

  lemma {:induction false} LexLessIrreflexive(a: string)
    ensures !LexLess(a, a)
  {
    if a != [] {
      LexLessIrreflexive(a[1..]);
    }
  }

  lemma {:induction false} LexLessTransitive(a: string, b: string, c: string)
    requires LexLess(a, b) && LexLess(b, c)
    ensures LexLess(a, c)
  {
    if a != [] && a[0] == b[0] && b[0] == c[0] {
      LexLessTransitive(a[1..], b[1..], c[1..]);
    }
  }

  lemma {:induction false} LexLessTotal(a: string, b: string)
    ensures a == b || LexLess(a, b) || LexLess(b, a)
  {
    if a != [] && b != [] && a[0] == b[0] {
      LexLessTotal(a[1..], b[1..]);
      if a[1..] == b[1..] {
        assert a == [a[0]] + a[1..] && b == [b[0]] + b[1..];
      }
    }
  }

  lemma {:induction false} LexLessAsymmetric(a: string, b: string)
    requires LexLess(a, b)
    ensures !LexLess(b, a) && a != b
  {
    if LexLess(b, a) {
      LexLessTransitive(a, b, a);
      LexLessIrreflexive(a);
    }
    LexLessIrreflexive(a);
  }

  /** Every value is below every later one: sorted and without repeats. */
  predicate StrictlyIncreasing(s: seq<string>) {
    forall i, j :: 0 <= i < j < |s| ==> LexLess(s[i], s[j])
  }

  /** Adds `k` to a strictly increasing list, unless it is already there. */
  function InsertKey(k: string, s: seq<string>): (r: seq<string>)
    requires StrictlyIncreasing(s)
    ensures StrictlyIncreasing(r)
    ensures forall x :: x in r <==> x == k || x in s
    ensures |r| <= |s| + 1
  {
    if s == [] then [k]
    else if k == s[0] then s
    else if LexLess(k, s[0]) then
      assert forall j :: 0 < j < |s| ==> LexLess(k, s[j]) by {
        forall j | 0 < j < |s| ensures LexLess(k, s[j]) {
          LexLessTransitive(k, s[0], s[j]);
        }
      }
      [k] + s
    else
      var rest := InsertKey(k, s[1..]);
      assert LexLess(s[0], k) by {
        LexLessTotal(k, s[0]);
      }
      assert forall x :: x in rest ==> LexLess(s[0], x);
      [s[0]] + rest
  }

  /** The distinct values of `xs` in increasing order. */
  function SortedKeys(xs: seq<string>): (r: seq<string>)
    ensures StrictlyIncreasing(r)
    ensures forall x :: x in r <==> x in xs
    ensures |r| <= |xs|
  {
    if xs == [] then []
    else
      var r := InsertKey(xs[|xs| - 1], SortedKeys(xs[..|xs| - 1]));
      assert forall x :: x in xs <==> x in xs[..|xs| - 1] || x == xs[|xs| - 1] by {
        assert xs == xs[..|xs| - 1] + [xs[|xs| - 1]];
      }
      r
  }

  lemma StrictlyIncreasingDistinct(s: seq<string>, i: nat, j: nat)
    requires StrictlyIncreasing(s)
    requires i < |s| && j < |s| && i != j
    ensures s[i] != s[j]
  {
    if i < j {
      LexLessAsymmetric(s[i], s[j]);
    } else {
      LexLessAsymmetric(s[j], s[i]);
    }
  }
}

=== FILE: loader.dfy ===
/**
 * `load_data`: choose a parser from the file name, run it, then drop duplicate rows and
 * strip the column headers. The parsers themselves (pandas' CSV reader and the xlrd and
 * openpyxl spreadsheet readers) are outside the model: they are passed in as a function
 * from the chosen format to a parsed grid or a diagnostic.
 */
module Loader {
  import opened Wrappers
  import opened Text
  import opened Cells
  import opened Sheets

  /** The three readers: `read_csv`, `read_excel(engine="xlrd")`, `read_excel(engine="openpyxl")`. */
  datatype Format = Csv | Xls | Xlsx

  /** Why a load stops the run: an unknown extension, or a reader that raised. */
  datatype LoadError = UnsupportedFormat | ParseError(diagnostic: string)

  /** What a reader produces: headers and rows of cells. */
  datatype Grid = Grid(columns: seq<string>, rows: seq<seq<Cell>>)

  predicate WellShaped(g: Grid) {
    Rectangular(g.rows, |g.columns|)
  }

  lemma LowerIdempotent(s: string)
    ensures Lower(Lower(s)) == Lower(s)
  {
    forall k | 0 <= k < |s|
      ensures Lower(Lower(s))[k] == Lower(s)[k]
    {
      CaseMapsIdempotent(s[k]);
    }
  }

  /**
   * The reader for a file name, decided on its lower-cased suffix: ".csv", then ".xls",
   * then ".xlsx"; any other name is an unsupported format. The three suffixes exclude one
   * another, so each outcome holds exactly when its own suffix is present.
   */
  function Dispatch(fileName: string): (r: Result<Format, LoadError>)
    ensures r == Ok(Csv) <==> EndsWith(Lower(fileName), ".csv")
    ensures r == Ok(Xls) <==> EndsWith(Lower(fileName), ".xls")
    ensures r == Ok(Xlsx) <==> EndsWith(Lower(fileName), ".xlsx")
    ensures r.Err? <==> !EndsWith(Lower(fileName), ".csv") && !EndsWith(Lower(fileName), ".xls")
                        && !EndsWith(Lower(fileName), ".xlsx")
    ensures r.Err? ==> r.error == UnsupportedFormat
  {
    var name := Lower(fileName);
    if EndsWith(name, ".csv") then
      assert name[|name| - 1] == 'v';
      Ok(Csv)
    else if EndsWith(name, ".xls") then
      assert name[|name| - 1] == 's';
      Ok(Xls)
    else if EndsWith(name, ".xlsx") then
      assert name[|name| - 1] == 'x';
      Ok(Xlsx)
    else
      Err(UnsupportedFormat)
  }

  /** The choice of reader does not depend on the case of the file name. */
  lemma {:induction false} DispatchIgnoresCase(fileName: string)
    ensures Dispatch(Lower(fileName)) == Dispatch(fileName)
  {
    LowerIdempotent(fileName);
  }

  /**
   * `load_data` as a function: the cleaned grid, or the error that stops the run. A reader
   * that raises is reported with its diagnostic.
   */
  function Load(fileName: string, parse: Format -> Result<Grid, string>): (r: Result<Grid, LoadError>)
    ensures Dispatch(fileName).Err? ==> r == Err(UnsupportedFormat)
    ensures Dispatch(fileName).Ok? && parse(Dispatch(fileName).value).Err? ==>
              r == Err(ParseError(parse(Dispatch(fileName).value).error))
    ensures r.Ok? ==> Dispatch(fileName).Ok? && parse(Dispatch(fileName).value).Ok?
    ensures r.Ok? ==>
              var g := parse(Dispatch(fileName).value).value;
              && |r.value.columns| == |g.columns|
              && (forall k :: 0 <= k < |g.columns| ==> r.value.columns[k] == Strip(g.columns[k]))
              && (forall k :: 0 <= k < |g.columns| ==> IsStripped(r.value.columns[k]))
              && |r.value.rows| <= |g.rows|
              && NoDuplicates(r.value.rows)
              && (forall row :: row in r.value.rows <==> row in g.rows)
              && r.value.rows == Dedup(g.rows)
  {
    match Dispatch(fileName)
    case Err(e) => Err(e)
    case Ok(format) =>
      match parse(format)
      case Err(diagnostic) => Err(ParseError(diagnostic))
      case Ok(g) => Ok(Grid(StripHeaders(g.columns), Dedup(g.rows)))
  }

  lemma LoadWellShaped(fileName: string, parse: Format -> Result<Grid, string>)
    requires forall f: Format :: parse(f).Ok? ==> WellShaped(parse(f).value)
    ensures Load(fileName, parse).Ok? ==> WellShaped(Load(fileName, parse).value)
  {
    var r := Load(fileName, parse);
    if r.Ok? {
      var g := parse(Dispatch(fileName).value).value;
      assert forall i :: 0 <= i < |r.value.rows| ==> r.value.rows[i] in g.rows;
    }
  }

  /** `load_data` on the sheet object: read, then clean in place. */
  method LoadData(fileName: string, parse: Format -> Result<Grid, string>)
    returns (r: Result<Sheet, LoadError>)
    requires forall f: Format :: parse(f).Ok? ==> WellShaped(parse(f).value)
    ensures r.Ok? <==> Load(fileName, parse).Ok?
    ensures r.Err? ==> r.error == Load(fileName, parse).error
    ensures r.Ok? ==> fresh(r.value) && r.value.Valid()
    ensures r.Ok? ==> Grid(r.value.columns, r.value.rows) == Load(fileName, parse).value
  {
    var format := Dispatch(fileName);
    if format.Err? {
      return Err(UnsupportedFormat);
    }
    var parsed := parse(format.value);
    if parsed.Err? {
      return Err(ParseError(parsed.error));
    }
    var sheet := new Sheet(parsed.value.columns, parsed.value.rows);
    sheet.DropDuplicates();
    sheet.StripColumnNames();
    r := Ok(sheet);
  }
}

=== FILE: ranking.dfy ===
/**
 * Ranking the rows of the cross-tabulation by their totals and keeping the first `TOP_N`:
 * `sort_values("Total", ascending=False)`, then `head(TOP_N)`, with the totals kept beside
 * the table rather than as one of its columns. pandas' default sort is not stable, so the
 * order of rows with equal totals is fixed here: they keep the increasing source order the
 * cross-tabulation gives them.
 */
module Ranking {
  import opened LexOrder
  import opened CrossTab

  /** A row of a count table with the total it is ranked by. */
  datatype Ranked = Ranked(source: string, counts: seq<nat>, total: nat)

  /** `x` may stand above `y`: a larger total first, equal totals in increasing source order. */
  predicate Precedes(x: Ranked, y: Ranked)
    ensures Precedes(x, y) ==> x.total >= y.total
    ensures x.total > y.total ==> Precedes(x, y)
  {
    x.total > y.total || (x.total == y.total && !LexLess(y.source, x.source))
  }

  lemma PrecedesConnected(x: Ranked, y: Ranked)
    ensures Precedes(x, y) || Precedes(y, x)
  {
    if LexLess(x.source, y.source) {
      LexLessAsymmetric(x.source, y.source);
    }
  }

  lemma PrecedesTransitive(x: Ranked, y: Ranked, z: Ranked)
    requires Precedes(x, y) && Precedes(y, z)
    ensures Precedes(x, z)
  {
    if x.total == y.total == z.total && LexLess(z.source, x.source) {
      LexLessTotal(x.source, y.source);
      LexLessTotal(y.source, z.source);
      if x.source != y.source && y.source != z.source {
        LexLessTransitive(x.source, y.source, z.source);
        LexLessAsymmetric(x.source, z.source);
      }
    }
  }

  /** Every row may stand above every later one. */
  predicate Ordered(rs: seq<Ranked>) {
    forall i, j :: 0 <= i < j < |rs| ==> Precedes(rs[i], rs[j])
  }

  /** Places `x` above the first row it may precede. */
  function Insert(x: Ranked, rs: seq<Ranked>): (r: seq<Ranked>)
    requires Ordered(rs)
    ensures Ordered(r)
    ensures multiset(r) == multiset(rs) + multiset{x}
  {
    if rs == [] then [x]
    else if Precedes(x, rs[0]) then
      InsertAtFront(x, rs);
      [x] + rs
    else
      var rest := Insert(x, rs[1..]);
      InsertBehind(x, rs, rest);
      [rs[0]] + rest
  }

  lemma InsertAtFront(x: Ranked, rs: seq<Ranked>)
    requires Ordered(rs) && rs != [] && Precedes(x, rs[0])
    ensures Ordered([x] + rs)
  {
    forall j | 0 < j < |rs| ensures Precedes(x, rs[j]) {
      PrecedesTransitive(x, rs[0], rs[j]);
    }
  }

  lemma InsertBehind(x: Ranked, rs: seq<Ranked>, rest: seq<Ranked>)
    requires Ordered(rs) && rs != [] && !Precedes(x, rs[0])
    requires Ordered(rest) && multiset(rest) == multiset(rs[1..]) + multiset{x}
    ensures Ordered([rs[0]] + rest)
    ensures multiset([rs[0]] + rest) == multiset(rs) + multiset{x}
  {
    PrecedesConnected(x, rs[0]);
    assert rs == [rs[0]] + rs[1..];
    forall j | 0 <= j < |rest| ensures Precedes(rs[0], rest[j]) {
      assert rest[j] in multiset(rest);
    }
  }

  /** Insertion sort into ranking order. */
  function Sort(rs: seq<Ranked>): (r: seq<Ranked>)
    ensures Ordered(r)
    ensures multiset(r) == multiset(rs)
  {
    if rs == [] then []
    else
      assert rs == [rs[0]] + rs[1..];
      Insert(rs[0], Sort(rs[1..]))
  }

  function Min(a: nat, b: nat): nat {
    if a <= b then a else b
  }

  /** The rows of a count table, each with its row total (`cross_tab.sum(axis=1)`). */
  function RowsOf(f: Frame): (r: seq<Ranked>)
    requires |f.cells| == |f.index|
    ensures |r| == |f.index|
    ensures forall i :: 0 <= i < |r| ==> r[i] == Ranked(f.index[i], f.cells[i], Sum(f.cells[i]))
  {
    seq(|f.index|, i requires 0 <= i < |f.index| => Ranked(f.index[i], f.cells[i], Sum(f.cells[i])))
  }

  /**
   * The rows of `f` in ranking order: a permutation of them in which the totals never
   * increase from top to bottom and rows with equal totals appear in increasing source order.
   */
  function Rank(f: Frame): (r: seq<Ranked>)
    requires |f.cells| == |f.index|
    ensures multiset(r) == multiset(RowsOf(f))
    ensures |r| == |f.index|
    ensures forall i, j :: 0 <= i < j < |r| ==> r[i].total >= r[j].total
    ensures forall i, j :: 0 <= i < j < |r| && r[i].total == r[j].total ==> !LexLess(r[j].source, r[i].source)
    ensures forall i :: 0 <= i < |r| ==> r[i].total == Sum(r[i].counts)
  {
    var r := Sort(RowsOf(f));
    assert |r| == |multiset(r)| == |multiset(RowsOf(f))|;
    forall i | 0 <= i < |r|
      ensures r[i].total == Sum(r[i].counts)
    {
      assert r[i] in multiset(RowsOf(f));
    }
    r
  }

  function Labels(rs: seq<Ranked>): (r: seq<string>)
    ensures |r| == |rs| && forall i :: 0 <= i < |rs| ==> r[i] == rs[i].source
  {
    seq(|rs|, i requires 0 <= i < |rs| => rs[i].source)
  }

  function Counts(rs: seq<Ranked>): (r: seq<seq<nat>>)
    ensures |r| == |rs| && forall i :: 0 <= i < |rs| ==> r[i] == rs[i].counts
  {
    seq(|rs|, i requires 0 <= i < |rs| => rs[i].counts)
  }

  /**
   * Lines 111-117 with the totals kept apart from the table: the first `n` rows of the
   * ranking, with exactly the columns of `f`. There are `min(n, rows of f)` of them, each a
   * row of `f` with its counts unchanged, and their totals never increase.
   */
  function Top(f: Frame, n: nat): (r: Frame)
    requires Shaped(f)
    ensures Shaped(r)
    ensures r.columns == f.columns
    ensures |r.index| == Min(n, |f.index|)
    ensures forall i, j :: 0 <= i < j < |r.index| ==> Sum(r.cells[i]) >= Sum(r.cells[j])
    ensures forall i :: 0 <= i < |r.index| ==>
              exists k :: 0 <= k < |f.index| && f.index[k] == r.index[i] && f.cells[k] == r.cells[i]
  {
    var ranked := Rank(f);
    var kept := ranked[..Min(n, |ranked|)];
    forall i | 0 <= i < |kept|
      ensures exists k :: 0 <= k < |f.index| && f.index[k] == kept[i].source && f.cells[k] == kept[i].counts
    {
      assert kept[i] in multiset(RowsOf(f));
      var k :| 0 <= k < |f.index| && RowsOf(f)[k] == kept[i];
    }
    Frame(Labels(kept), f.columns, Counts(kept))
  }

  /**
   * `head(n)` after the sort: the displayed rows are the first `min(n, rows)` ranked rows.
   * This links `Top` to the independent contract of `Rank` for the lemmas below.
   */
  lemma TopIsPrefix(f: Frame, n: nat)
    requires Shaped(f)
    ensures var kept := Rank(f)[..Min(n, |f.index|)];
            Top(f, n).index == Labels(kept) && Top(f, n).cells == Counts(kept)
  {
  }

  lemma RankPosition(f: Frame, k: nat) returns (p: nat)
    requires Shaped(f) && k < |f.index|
    ensures p < |f.index| && Rank(f)[p] == RowsOf(f)[k]
  {
    var ranked := Rank(f);
    assert RowsOf(f)[k] in multiset(ranked);
    p :| 0 <= p < |ranked| && ranked[p] == RowsOf(f)[k];
  }

  /** Every row that `head` drops has a total no larger than that of any row it keeps. */
  lemma {:induction false} TopKeepsLargest(f: Frame, n: nat, k: nat)
    requires Shaped(f)
    requires k < |f.index| && f.index[k] !in Top(f, n).index
    ensures forall i :: 0 <= i < |Top(f, n).index| ==> Sum(Top(f, n).cells[i]) >= Sum(f.cells[k])
  {
    var r := Top(f, n);
    var ranked := Rank(f);
    var m := Min(n, |f.index|);
    TopIsPrefix(f, n);
    var p := RankPosition(f, k);
    assert forall i :: 0 <= i < m ==> r.index[i] == ranked[i].source;
    assert m <= p;
    forall i | 0 <= i < m
      ensures Sum(r.cells[i]) >= Sum(f.cells[k])
    {
      assert ranked[i].total >= ranked[p].total;
    }
  }

  /** The ranked table shows only row labels of `f`, under the columns of `f`. */
  lemma TopLabelsFrom(f: Frame, n: nat)
    requires Shaped(f)
    ensures forall s :: s in Top(f, n).index ==> s in f.index
    ensures Top(f, n).columns == f.columns
  {
    var r := Top(f, n);
    forall s | s in r.index
      ensures s in f.index
    {
      var i :| 0 <= i < |r.index| && r.index[i] == s;
      var k :| 0 <= k < |f.index| && f.index[k] == r.index[i] && f.cells[k] == r.cells[i];
    }
  }

  /** With `n` at least the number of rows, nothing is dropped: every row label is kept. */
  lemma {:induction false} TopOfFewRows(f: Frame, n: nat)
    requires Shaped(f) && |f.index| <= n
    ensures |Top(f, n).index| == |f.index|
    ensures forall k :: 0 <= k < |f.index| ==> f.index[k] in Top(f, n).index
  {
    var r := Top(f, n);
    var ranked := Rank(f);
    assert r.index == Labels(ranked[..|ranked|]);
    forall k | 0 <= k < |f.index|
      ensures f.index[k] in r.index
    {
      assert RowsOf(f)[k] in multiset(ranked);
      var p :| 0 <= p < |ranked| && ranked[p] == RowsOf(f)[k];
      assert r.index[p] == f.index[k];
    }
  }

  // ---------------------------------------------------------------------------
  // Counts through the ranking
  // ---------------------------------------------------------------------------

  lemma {:induction false} InsertGrandTotal(x: Ranked, rs: seq<Ranked>)
    requires Ordered(rs)
    ensures GrandTotal(Counts(Insert(x, rs))) == Sum(x.counts) + GrandTotal(Counts(rs))
  {
    if rs == [] {
      assert Counts([x])[1..] == [];
    } else if Precedes(x, rs[0]) {
      assert Counts([x] + rs)[1..] == Counts(rs);
    } else {
      var rest := Insert(x, rs[1..]);
      InsertGrandTotal(x, rs[1..]);
      assert Counts([rs[0]] + rest)[1..] == Counts(rest);
      assert Counts(rs)[1..] == Counts(rs[1..]);
    }
  }

  lemma {:induction false} SortGrandTotal(rs: seq<Ranked>)
    ensures GrandTotal(Counts(Sort(rs))) == GrandTotal(Counts(rs))
  {
    if rs != [] {
      SortGrandTotal(rs[1..]);
      InsertGrandTotal(rs[0], Sort(rs[1..]));
      assert Counts(rs)[1..] == Counts(rs[1..]);
    }
  }

  lemma {:induction false} GrandTotalPrefix(cells: seq<seq<nat>>, m: nat)
    requires m <= |cells|
    ensures GrandTotal(cells[..m]) <= GrandTotal(cells)
  {
    if m > 0 {
      assert cells[..m][1..] == cells[1..][..m - 1];
      GrandTotalPrefix(cells[1..], m - 1);
    }
  }

  /** Ranking the rows of a table keeps the sum of all its counts. */
  lemma RankGrandTotal(f: Frame)
    requires Shaped(f)
    ensures GrandTotal(Counts(Rank(f))) == GrandTotal(f.cells)
  {
    SortGrandTotal(RowsOf(f));
    assert Counts(RowsOf(f)) == f.cells;
  }

  /**
   * The ranked, truncated table never shows more than the full table's count, and shows
   * exactly that count when nothing is truncated.
   */
  lemma {:induction false} TopGrandTotal(f: Frame, n: nat)
    requires Shaped(f)
    ensures GrandTotal(Top(f, n).cells) <= GrandTotal(f.cells)
    ensures |f.index| <= n ==> GrandTotal(Top(f, n).cells) == GrandTotal(f.cells)
  {
    var ranked := Rank(f);
    var m := Min(n, |f.index|);
    TopIsPrefix(f, n);
    RankGrandTotal(f);
    assert Counts(ranked[..m]) == Counts(ranked)[..m];
    GrandTotalPrefix(Counts(ranked), m);
    assert Counts(ranked)[..|ranked|] == Counts(ranked);
  }
}

=== FILE: scenario.dfy ===
/**
 * A worked run of the dashboard: three leads whose source column reads "online",
 * "Online" and "Referral" and whose confirmation column reads "yes", "No" and "YES".
 * After cleaning, "Online" has one "No" and one "Yes", "Referral" one "Yes", and
 * "Online" ranks first.
 */
module Scenario {
  import opened Text
  import opened Wrappers
  import opened Cells
  import opened Sheets
  import opened Loader
  import opened LexOrder
  import opened CrossTab
  import opened Ranking
  import opened Dashboard

  const PAIRS: seq<Pair> := [("Online", "Yes"), ("Online", "No"), ("Referral", "Yes")]

  const TABLE: Frame := Frame(["Online", "Referral"], ["No", "Yes"], [[1, 1], [0, 1]])

  /** The uploaded sheet: a source column and a confirmation column, three leads. */
  const SHEET: Grid := Grid(["Source", "Confirmed"],
                            [[Str("online"), Str("yes")], [Str("Online"), Str("No")],
                             [Str("Referral"), Str("YES")]])

  /** The reader's result for the upload "leads.xlsx", whatever the format asked for. */
  function ReadSheet(f: Format): Result<Grid, string> {
    Ok(SHEET)
  }

  /** "leads.xlsx" is read as a modern Excel workbook. */
  lemma {:induction false} WorkbookName()
    ensures Dispatch("leads.xlsx") == Ok(Xlsx)
  {
    assert Lower("leads.xlsx") == "leads.xlsx";
    assert "leads.xlsx" == "leads" + ".xlsx";
  }

  /** The sheet's header has no outer whitespace. */
  lemma {:induction false} HeaderIsClean()
    ensures StripHeaders(SHEET.columns) == SHEET.columns
  {
    StripKeepsStripped("Source");
    StripKeepsStripped("Confirmed");
  }

  /** The sheet's three rows are different, so none is dropped as a duplicate. */
  lemma {:induction false} RowsAreDistinct()
    ensures Dedup(SHEET.rows) == SHEET.rows
  {
    var rows: seq<seq<Cell>> := SHEET.rows;
    assert rows[0][0].s[0] == 'o' && rows[1][0].s[0] == 'O' && rows[2][0].s[0] == 'R';
    assert rows[0] != rows[1] && rows[0] != rows[2] && rows[1] != rows[2];
    DedupOfDistinct(rows);
  }

  /** Loading the upload gives the sheet unchanged. */
  lemma {:induction false} SheetLoads()
    ensures Load("leads.xlsx", ReadSheet) == Ok(SHEET)
  {
    WorkbookName();
    HeaderIsClean();
    RowsAreDistinct();
  }

  /** Cleaning capitalises a lower-case source value. */
  lemma {:induction false} CleanedSource()
    ensures Normalize("online") == "Online"
  {
    NormalizeWord("online");
    assert Lower("nline") == "nline";
  }

  /** Cleaning turns a shouted answer into the same answer as a capitalised one. */
  lemma {:induction false} CleanedAnswer()
    ensures Normalize("YES") == Normalize("Yes") == "Yes"
  {
    NormalizeWord("YES");
    assert Lower("ES") == "es";
    CapitalisedIsClean("Yes");
  }

  /** Cleaning a lower-case answer gives the capitalised one. */
  lemma {:induction false} CleanedLowerAnswer()
    ensures Normalize("yes") == "Yes"
  {
    NormalizeWord("yes");
    assert Lower("es") == "es";
  }

  /** Values already capitalised are left as they are. */
  lemma CleanedAsGiven()
    ensures Normalize("Online") == "Online"
    ensures Normalize("Referral") == "Referral"
    ensures Normalize("No") == "No"
  {
    CapitalisedIsClean("Online");
    CapitalisedIsClean("Referral");
    CapitalisedIsClean("No");
  }

  lemma {:induction false} FirstLead()
    ensures WellShaped(SHEET) && |RunObservations(SHEET, 0, 1)| == 3
    ensures RunObservations(SHEET, 0, 1)[0] == ("Online", "Yes")
  {
    ObservationAt(SHEET, 0, 1, 0);
    CleanedSource();
    CleanedLowerAnswer();
  }

  lemma {:induction false} SecondLead()
    ensures WellShaped(SHEET) && RunObservations(SHEET, 0, 1)[1] == ("Online", "No")
  {
    ObservationAt(SHEET, 0, 1, 1);
    CleanedAsGiven();
  }

  lemma {:induction false} ThirdLead()
    ensures WellShaped(SHEET) && RunObservations(SHEET, 0, 1)[2] == ("Referral", "Yes")
  {
    ObservationAt(SHEET, 0, 1, 2);
    CleanedAsGiven();
    CleanedAnswer();
  }

  /** Cleaning the sheet's two columns yields the example's pairs. */
  lemma {:induction false} SheetObservations()
    ensures WellShaped(SHEET) && RunObservations(SHEET, 0, 1) == PAIRS
  {
    FirstLead();
    SecondLead();
    ThirdLead();
    ThreeElements(RunObservations(SHEET, 0, 1), PAIRS[0], PAIRS[1], PAIRS[2]);
  }

  lemma ThreeElements(obs: seq<Pair>, p0: Pair, p1: Pair, p2: Pair)
    requires |obs| == 3 && obs[0] == p0 && obs[1] == p1 && obs[2] == p2
    ensures obs == [p0, p1, p2]
  {
  }

  lemma {:induction false} PairKeys()
    ensures SortedKeys(Sources(PAIRS)) == ["Online", "Referral"]
    ensures SortedKeys(Confirms(PAIRS)) == ["No", "Yes"]
  {
    var xs := Sources(PAIRS);
    assert xs == ["Online", "Online", "Referral"];
    assert xs[..2][..1] == ["Online"];
    assert SortedKeys(["Online"]) == ["Online"];
    assert xs[..2] == ["Online", "Online"];
    assert SortedKeys(xs[..2]) == ["Online"];
    assert LexLess("Online", "Referral");
    var ys := Confirms(PAIRS);
    assert ys == ["Yes", "No", "Yes"];
    assert ys[..2][..1] == ["Yes"];
    assert SortedKeys(["Yes"]) == ["Yes"];
    assert ys[..2] == ["Yes", "No"];
    assert LexLess("No", "Yes");
    assert SortedKeys(ys[..2]) == ["No", "Yes"];
    assert !LexLess("Yes", "No");
    assert ["No", "Yes"][1..] == ["Yes"];
    assert InsertKey("Yes", ["No", "Yes"]) == ["No", "Yes"];
  }

  /** The cross-tabulation of the cleaned pairs. */
  lemma {:induction false} PairTable()
    ensures Crosstab(PAIRS) == TABLE
  {
    PairKeys();
    var f := Crosstab(PAIRS);
    assert f.index == ["Online", "Referral"];
    assert f.columns == ["No", "Yes"];
    assert Count(PAIRS, "Online", "No") == 1;
    assert Count(PAIRS, "Online", "Yes") == 1;
    assert Count(PAIRS, "Referral", "No") == 0;
    assert Count(PAIRS, "Referral", "Yes") == 1;
    assert f.cells[0] == [1, 1];
    assert f.cells[1] == [0, 1];
  }

  /** "Online" (total 2) ranks before "Referral" (total 1). */
  lemma {:induction false} TableRanking()
    ensures Rank(TABLE) == [Ranked("Online", [1, 1], 2), Ranked("Referral", [0, 1], 1)]
  {
    var a := Ranked("Online", [1, 1], 2);
    var b := Ranked("Referral", [0, 1], 1);
    assert Sum([1, 1]) == 2;
    assert Sum([0, 1]) == 1;
    assert RowsOf(TABLE) == [a, b];
    assert Sort([b]) == [b];
    assert Sort([a, b]) == [a, b];
  }

  /** With the slider at 5 both sources are shown, in ranking order. */
  lemma {:induction false} TableTop()
    ensures Top(TABLE, 5) == TABLE
  {
    var a := Ranked("Online", [1, 1], 2);
    var b := Ranked("Referral", [0, 1], 1);
    TableRanking();
    WholeRanking(TABLE, 5, [a, b]);
    assert Labels([a, b]) == TABLE.index;
    assert Counts([a, b]) == TABLE.cells;
  }

  lemma WholeRanking(f: Frame, n: nat, rs: seq<Ranked>)
    requires Shaped(f) && Rank(f) == rs && |f.index| <= n
    ensures Top(f, n) == Frame(Labels(rs), f.columns, Counts(rs))
  {
    TopIsPrefix(f, n);
    assert rs[..|f.index|] == rs;
  }

  /** The table the dashboard shows for the example's cleaned observations. */
  lemma {:induction false} ExampleTable()
    ensures Top(Crosstab(PAIRS), 5) == TABLE
  {
    PairTable();
    TableTop();
  }

  /** "Source" is the first column of the sheet and "Confirmed" the second. */
  lemma {:induction false} SelectedColumns()
    ensures ColumnIndex(SHEET.columns, "Source") == Ok(0)
    ensures ColumnIndex(SHEET.columns, "Confirmed") == Ok(1)
  {
    assert SHEET.columns[0] == "Source" && SHEET.columns[1] == "Confirmed";
    assert "Source" != "Confirmed";
  }

  /** The reader only ever returns the rectangular sheet. */
  lemma ReaderWellShaped()
    ensures forall f: Format :: ReadSheet(f).Ok? ==> WellShaped(ReadSheet(f).value)
  {
    assert WellShaped(SHEET);
  }

  /** The run on the upload gets past loading and column selection to the report. */
  lemma {:induction false} ExampleRunReports()
    ensures WellShaped(SHEET)
    ensures Analyse("leads.xlsx", ReadSheet, "Source", "Confirmed", 5) == Ok(Report(SHEET, 0, 1, 5))
  {
    ReaderWellShaped();
    SheetLoads();
    SelectedColumns();
    AnalyseSucceeds("leads.xlsx", ReadSheet, "Source", "Confirmed", 5, SHEET, 0, 1);
  }

  /** The whole run on the upload, selecting "Source" and "Confirmed" with the slider at 5. */
  lemma {:induction false} ExampleRun()
    ensures Analyse("leads.xlsx", ReadSheet, "Source", "Confirmed", 5) == Ok(TABLE)
  {
    ExampleRunReports();
    ExampleReport();
  }

  /** The table the dashboard shows for the example sheet with the slider at 5. */
  lemma {:induction false} ExampleReport()
    ensures WellShaped(SHEET) && Report(SHEET, 0, 1, 5) == TABLE
  {
    SheetObservations();
    ExampleTable();
  }
}

=== FILE: sheet.dfy ===
/**
 * The loaded sheet (`df`): its column headers and rows of cells, and the three in-place
 * changes the dashboard makes to it: dropping duplicate rows, stripping the headers, and
 * cleaning the values of a selected column.
 */
module Sheets {
  import opened Wrappers
  import opened Text
  import opened Cells

  // ---------------------------------------------------------------------------
  // drop_duplicates
  // ---------------------------------------------------------------------------

  /** The position of the first occurrence of `x` in `s`. */
  function FirstIndex<T(==)>(s: seq<T>, x: T): (i: nat)
    requires x in s
    ensures i < |s| && s[i] == x && x !in s[..i]
  {
    if s[0] == x then 0 else 1 + FirstIndex(s[1..], x)
  }

  lemma FirstIndexUnique<T>(s: seq<T>, x: T, i: nat)
    requires i < |s| && s[i] == x && x !in s[..i]
    ensures FirstIndex(s, x) == i
  {
  }

  /** The first occurrence of a value in a prefix is its first occurrence in the whole. */
  lemma FirstIndexOfPrefix<T>(s: seq<T>, m: nat, x: T)
    requires m <= |s| && x in s[..m]
    ensures x in s && FirstIndex(s, x) == FirstIndex(s[..m], x)
  {
    var i := FirstIndex(s[..m], x);
    assert s[..m][..i] == s[..i];
    FirstIndexUnique(s, x, i);
  }

  predicate NoDuplicates<T(==)>(s: seq<T>) {
    forall i, j :: 0 <= i < j < |s| ==> s[i] != s[j]
  }

  /**
   * `drop_duplicates()`: every value of `s` once, at its first occurrence, in the order of
   * those first occurrences.
   */
  function Dedup<T(==,!new)>(s: seq<T>): (r: seq<T>)
    ensures |r| <= |s|
    ensures NoDuplicates(r)
    ensures forall x :: x in r <==> x in s
    ensures forall i, j :: 0 <= i < j < |r| ==> FirstIndex(s, r[i]) < FirstIndex(s, r[j])
  {
    if s == [] then []
    else
      var n := |s| - 1;
      var d := Dedup(s[..n]);
      assert s == s[..n] + [s[n]];
      forall x | x in d
        ensures FirstIndex(s, x) == FirstIndex(s[..n], x) < n
      {
        FirstIndexOfPrefix(s, n, x);
      }
      if s[n] in d then d
      else
        FirstIndexUnique(s, s[n], n);
        d + [s[n]]
  }

  /** Removing duplicates a second time changes nothing. */
  lemma {:induction false} DedupOfDistinct<T(!new)>(s: seq<T>)
    requires NoDuplicates(s)
    ensures Dedup(s) == s
  {
    if s != [] {
      var n := |s| - 1;
      DedupOfDistinct(s[..n]);
      assert s[n] !in s[..n];
      assert s == s[..n] + [s[n]];
    }
  }

  // ---------------------------------------------------------------------------
  // Headers
  // ---------------------------------------------------------------------------

  /** `df.columns.str.strip()`: the same headers in the same order, each stripped. */
  function StripHeaders(columns: seq<string>): (r: seq<string>)
    ensures |r| == |columns|
    ensures forall k :: 0 <= k < |r| ==> IsStripped(r[k])
    ensures forall k :: 0 <= k < |r| ==> r[k] == Strip(columns[k])
  {
    seq(|columns|, k requires 0 <= k < |columns| => Strip(columns[k]))
  }

  datatype ColumnError = ColumnNotFound(name: string) | AmbiguousColumn(name: string)

  /**
   * The position of the column called `name`, as `df[name]` finds it. A missing name is a
   * `KeyError`; a name carried by several columns selects a frame instead of a column, on
   * which the string clean-up fails.
   */
  function ColumnIndex(columns: seq<string>, name: string): (r: Result<nat, ColumnError>)
    ensures r.Ok? ==> r.value < |columns| && columns[r.value] == name
    ensures r.Ok? ==> forall k :: 0 <= k < |columns| && columns[k] == name ==> k == r.value
    ensures r == Err(ColumnNotFound(name)) <==> name !in columns
    ensures r == Err(AmbiguousColumn(name)) <==>
              exists i, j :: 0 <= i < j < |columns| && columns[i] == name && columns[j] == name
    ensures r.Ok? || r == Err(ColumnNotFound(name)) || r == Err(AmbiguousColumn(name))
  {
    if name !in columns then Err(ColumnNotFound(name))
    else
      var i := FirstIndex(columns, name);
      if name in columns[i + 1..] then
        assert exists k :: i < k < |columns| && columns[k] == name;
        Err(AmbiguousColumn(name))
      else
        assert forall k :: 0 <= k < |columns| && k != i ==> columns[k] != name by {
          forall k | 0 <= k < |columns| && k != i
            ensures columns[k] != name
          {
            if k < i {
              assert columns[..i][k] == columns[k];
            } else {
              assert columns[i + 1..][k - i - 1] == columns[k];
            }
          }
        }
        Ok(i)
  }

  // ---------------------------------------------------------------------------
  // Column clean-up
  // ---------------------------------------------------------------------------

  /** Every row has exactly `width` cells. */
  predicate Rectangular(rows: seq<seq<Cell>>, width: nat) {
    forall i :: 0 <= i < |rows| ==> |rows[i]| == width
  }

  /** `df[col] = df[col].astype(str).str.strip().str.title()` for the column at `k`. */
  function NormalizeAt(rows: seq<seq<Cell>>, k: nat): (r: seq<seq<Cell>>)
    requires forall i :: 0 <= i < |rows| ==> k < |rows[i]|
    ensures |r| == |rows|
    ensures forall i :: 0 <= i < |r| ==> |r[i]| == |rows[i]|
    ensures forall i, j :: 0 <= i < |r| && 0 <= j < |r[i]| && j != k ==> r[i][j] == rows[i][j]
    ensures forall i :: 0 <= i < |r| ==> r[i][k] == NormalizeCell(rows[i][k])
  {
    seq(|rows|, i requires 0 <= i < |rows| => rows[i][k := NormalizeCell(rows[i][k])])
  }

  /** Cleaning the same column twice leaves the sheet as one cleaning does. */
  lemma NormalizeAtIdempotent(rows: seq<seq<Cell>>, k: nat)
    requires forall i :: 0 <= i < |rows| ==> k < |rows[i]|
    ensures NormalizeAt(NormalizeAt(rows, k), k) == NormalizeAt(rows, k)
  {
    var once := NormalizeAt(rows, k);
    var twice := NormalizeAt(once, k);
    forall i | 0 <= i < |rows|
      ensures twice[i] == once[i]
    {
      NormalizeCellIdempotent(rows[i][k]);
    }
  }

  /** The text of column `k` in every row. */
  function ColumnText(rows: seq<seq<Cell>>, k: nat): (r: seq<string>)
    requires forall i :: 0 <= i < |rows| ==> k < |rows[i]|
    ensures |r| == |rows|
    ensures forall i :: 0 <= i < |r| ==> r[i] == ToStr(rows[i][k])
  {
    seq(|rows|, i requires 0 <= i < |rows| => ToStr(rows[i][k]))
  }

  /** After cleaning, the text of the column is stripped and cleaning it again changes nothing. */
  lemma NormalizedColumnText(rows: seq<seq<Cell>>, k: nat)
    requires forall i :: 0 <= i < |rows| ==> k < |rows[i]|
    ensures forall i :: 0 <= i < |rows| ==>
              ColumnText(NormalizeAt(rows, k), k)[i] == Normalize(ToStr(rows[i][k]))
    ensures forall v :: v in ColumnText(NormalizeAt(rows, k), k) ==> Normalize(v) == v
  {
    forall v | v in ColumnText(NormalizeAt(rows, k), k)
      ensures Normalize(v) == v
    {
      var i :| 0 <= i < |rows| && ColumnText(NormalizeAt(rows, k), k)[i] == v;
      NormalizeIdempotent(ToStr(rows[i][k]));
    }
  }

  // ---------------------------------------------------------------------------
  // The sheet object
  // ---------------------------------------------------------------------------

  class Sheet {
    var columns: seq<string>
    var rows: seq<seq<Cell>>

    /** pandas keeps one cell per column in every row. */
    ghost predicate Valid()
      reads this
    {
      Rectangular(rows, |columns|)
    }

    constructor (columns: seq<string>, rows: seq<seq<Cell>>)
      requires Rectangular(rows, |columns|)
      ensures Valid()
      ensures this.columns == columns && this.rows == rows
    {
      this.columns := columns;
      this.rows := rows;
    }

    /** `df = df.drop_duplicates()`. */
    method DropDuplicates()
      requires Valid()
      modifies this
      ensures Valid()
      ensures columns == old(columns)
      ensures rows == Dedup(old(rows))
    {
      var kept := Dedup(rows);
      assert forall i :: 0 <= i < |kept| ==> kept[i] in rows;
      rows := kept;
    }

    /** `df.columns = df.columns.str.strip()`. */
    method StripColumnNames()
      requires Valid()
      modifies this
      ensures Valid()
      ensures columns == StripHeaders(old(columns))
      ensures rows == old(rows)
    {
      columns := StripHeaders(columns);
    }

    /**
     * `df[name] = df[name].astype(str).str.strip().str.title()`: on success the column
     * called `name` holds cleaned text and nothing else changes; on failure nothing changes.
     */
    method NormalizeColumn(name: string) returns (r: Result<nat, ColumnError>)
      requires Valid()
      modifies this
      ensures Valid()
      ensures r == ColumnIndex(old(columns), name)
      ensures columns == old(columns)
      ensures r.Ok? ==> rows == NormalizeAt(old(rows), r.value)
      ensures r.Err? ==> rows == old(rows)
    {
      r := ColumnIndex(columns, name);
      if r.Ok? {
        rows := NormalizeAt(rows, r.value);
      }
    }
  }
}

=== FILE: text.dfy ===
/**
 * The string operations the dashboard applies to file names, column headers and cell
 * values: lower-casing, suffix tests, whitespace stripping and title-casing. They follow
 * Python's `str.lower`, `str.endswith`, `str.strip` and `str.title` restricted to ASCII:
 * characters outside ASCII are treated as uncased, non-space and are left unchanged.
 */
module Text {

  /** Python's `str.isspace` on ASCII: tab, line feed, vertical tab, form feed, carriage
      return, the four information separators 0x1C-0x1F, and space. */
  predicate IsSpace(c: char) {
    9 <= c as int <= 13 || 28 <= c as int <= 32
  }

  predicate IsUpper(c: char) { 'A' <= c <= 'Z' }

  predicate IsLower(c: char) { 'a' <= c <= 'z' }

  /** A cased character in Python's sense (ASCII letters only). */
  predicate IsLetter(c: char) { IsUpper(c) || IsLower(c) }

  function ToUpper(c: char): (u: char)
    ensures IsLetter(u) == IsLetter(c) && !IsLower(u)
    ensures IsSpace(u) == IsSpace(c)
    ensures !IsLetter(c) ==> u == c
  {
    if IsLower(c) then (c as int - 32) as char else c
  }

  function ToLower(c: char): (l: char)
    ensures IsLetter(l) == IsLetter(c) && !IsUpper(l)
    ensures IsSpace(l) == IsSpace(c)
    ensures !IsLetter(c) ==> l == c
  {
    if IsUpper(c) then (c as int + 32) as char else c
  }

  lemma CaseMapsIdempotent(c: char)
    ensures ToUpper(ToUpper(c)) == ToUpper(c)
    ensures ToLower(ToLower(c)) == ToLower(c)
  {
  }

  /** `s.lower()`. */
  function Lower(s: string): (r: string)
    ensures |r| == |s|
    ensures forall k :: 0 <= k < |s| ==> r[k] == ToLower(s[k])
  {
    seq(|s|, k requires 0 <= k < |s| => ToLower(s[k]))
  }

  /** `s.endswith(suffix)`: `s` is some text followed by `suffix`. */
  predicate EndsWith(s: string, suffix: string)
    ensures EndsWith(s, suffix) <==> exists p :: s == p + suffix
  {
    assert |suffix| <= |s| ==> s == s[..|s| - |suffix|] + s[|s| - |suffix|..];
    |suffix| <= |s| && s[|s| - |suffix|..] == suffix
  }

  // ---------------------------------------------------------------------------
  // strip
  // ---------------------------------------------------------------------------

  /** Neither the first nor the last character is whitespace. */
  predicate IsStripped(s: string) {
    s == [] || (!IsSpace(s[0]) && !IsSpace(s[|s| - 1]))
  }

  /** The length of the longest all-whitespace prefix of `s`. */
  function LeadingSpace(s: string): (n: nat)
    ensures n <= |s|
    ensures forall k :: 0 <= k < n ==> IsSpace(s[k])
    ensures n < |s| ==> !IsSpace(s[n])
  {
    if s != [] && IsSpace(s[0]) then 1 + LeadingSpace(s[1..]) else 0
  }

  /** The length of the longest all-whitespace suffix of `s`. */
  function TrailingSpace(s: string): (n: nat)
    ensures n <= |s|
    ensures forall k :: |s| - n <= k < |s| ==> IsSpace(s[k])
    ensures n < |s| ==> !IsSpace(s[|s| - 1 - n])
  {
    if s != [] && IsSpace(s[|s| - 1]) then 1 + TrailingSpace(s[..|s| - 1]) else 0
  }

  /**
   * `s.strip()`: the part of `s` after its leading whitespace and before its trailing
   * whitespace. The ensures clauses determine the result uniquely: it starts where the
   * leading whitespace ends, everything after it is whitespace, and it neither starts
   * nor ends with whitespace.
   */
  function Strip(s: string): (r: string)
    ensures IsStripped(r)
    ensures LeadingSpace(s) + |r| <= |s|
    ensures r == s[LeadingSpace(s)..LeadingSpace(s) + |r|]
    ensures forall k :: LeadingSpace(s) + |r| <= k < |s| ==> IsSpace(s[k])
  {
    var lead := LeadingSpace(s);
    var t := s[lead..];
    var m := |t| - TrailingSpace(t);
    assert t[..m] == s[lead..lead + m];
    t[..m]
  }

  lemma StripKeepsStripped(s: string)
    requires IsStripped(s)
    ensures Strip(s) == s
  {
  }

  // ---------------------------------------------------------------------------
  // title
  // ---------------------------------------------------------------------------

  /**
   * `str.title` continued after a character that was (`prevCased`) or was not a letter:
   * a letter is upper-cased when the character before it is not a letter (or it starts
   * the string and `prevCased` is false) and lower-cased otherwise; every other character
   * is kept.
   */
  function TitleFrom(s: string, prevCased: bool): (r: string)
    ensures |r| == |s|
    ensures forall k :: 0 <= k < |s| ==>
              r[k] == (if (if k == 0 then prevCased else IsLetter(s[k - 1]))
                       then ToLower(s[k]) else ToUpper(s[k]))
  {
    if s == [] then []
    else
      var c := if prevCased then ToLower(s[0]) else ToUpper(s[0]);
      [c] + TitleFrom(s[1..], IsLetter(s[0]))
  }

  /** `s.title()`. */
  function Title(s: string): (r: string)
    ensures |r| == |s|
    ensures forall k :: 0 <= k < |s| ==> IsSpace(r[k]) == IsSpace(s[k])
    ensures forall k :: 0 <= k < |s| ==> IsLetter(r[k]) == IsLetter(s[k])
    ensures forall k :: 0 <= k < |s| && !IsLetter(s[k]) ==> r[k] == s[k]
  {
    var r := TitleFrom(s, false);
    forall k | 0 <= k < |s|
      ensures r[k] == ToLower(s[k]) || r[k] == ToUpper(s[k])
    {
      if k == 0 {
        assert r[0] == ToUpper(s[0]);
      } else {
        assert r[k] == if IsLetter(s[k - 1]) then ToLower(s[k]) else ToUpper(s[k]);
      }
    }
    r
  }

  lemma {:induction false} TitleIdempotent(s: string)
    ensures Title(Title(s)) == Title(s)
  {
    var t := Title(s);
    forall k | 0 <= k < |s|
      ensures Title(t)[k] == t[k]
    {
      CaseMapsIdempotent(s[k]);
      if 0 < k {
        assert IsLetter(t[k - 1]) == IsLetter(s[k - 1]);
      }
    }
  }

  /**
   * The value clean-up of the dashboard: `title(strip(s))`. It never lengthens a value and
   * leaves no whitespace at either end.
   */
  function Normalize(s: string): (r: string)
    ensures |r| <= |s|
    ensures IsStripped(r)
  {
    Title(Strip(s))
  }

  /** A normalised value is stripped and stays what it is when normalised again. */
  lemma {:induction false} NormalizeIdempotent(s: string)
    ensures IsStripped(Normalize(s))
    ensures Normalize(Normalize(s)) == Normalize(s)
  {
    var t := Normalize(s);
    StripKeepsStripped(t);
    TitleIdempotent(Strip(s));
  }

  /** A single word of letters is normalised to its capitalised form. */
  lemma {:induction false} NormalizeWord(s: string)
    requires s != [] && forall k :: 0 <= k < |s| ==> IsLetter(s[k])
    ensures Normalize(s) == [ToUpper(s[0])] + Lower(s[1..])
  {
    StripKeepsStripped(s);
    var r := TitleFrom(s, false);
    var w := [ToUpper(s[0])] + Lower(s[1..]);
    forall k | 0 <= k < |s|
      ensures r[k] == w[k]
    {
      if 0 < k {
        assert IsLetter(s[k - 1]);
      }
    }
  }

  /** A capitalised word (one upper-case letter, then lower-case letters) is already clean. */
  lemma {:induction false} CapitalisedIsClean(s: string)
    requires s != [] && IsUpper(s[0]) && forall k :: 1 <= k < |s| ==> IsLower(s[k])
    ensures Normalize(s) == s
  {
    NormalizeWord(s);
    assert Lower(s[1..]) == s[1..];
  }

  /** Normalising preserves length after stripping: only outer whitespace is removed. */
  lemma NormalizeLength(s: string)
    ensures |Normalize(s)| <= |s|
    ensures IsStripped(s) ==> |Normalize(s)| == |s|
  {
  }
}

=== FILE: totalcolumn.dfy ===
/**
 * Lines 111-117 as the dashboard writes them: the row totals are stored in the
 * cross-tabulation itself, as a column named "Total" (an in-place change of `cross_tab`),
 * the rows are sorted by that column, the column is dropped and the first `TOP_N` rows
 * are kept. When one of the confirmation values is itself "Total" (a cleaned "total"),
 * the assignment overwrites that category's column and the drop then removes it from the
 * result. `AsWrittenTop` models this; `AsWrittenIsTopWithoutTotal` relates it to the
 * ranking of `Ranking.Top`, and `TotalCategoryIsLost` exhibits the lost column.
 */
module TotalColumn {
  import opened Text
  import opened LexOrder
  import opened Sheets
  import opened CrossTab
  import opened Ranking

  const TOTAL: string := "Total"

  /**
   * `cross_tab["Total"] = cross_tab.sum(axis=1)` on values: every row total is computed
   * first, then written into the column(s) named "Total" if there are any, or into a new
   * last column otherwise. The "Total" column of the result holds each row's full sum.
   */
  function WithTotal(f: Frame): (r: Frame)
    requires Shaped(f)
    ensures Shaped(r) && r.index == f.index && TOTAL in r.columns
    ensures TOTAL in f.columns ==> r.columns == f.columns
    ensures TOTAL !in f.columns ==> r.columns == f.columns + [TOTAL]
    ensures forall i, j :: 0 <= i < |r.index| && 0 <= j < |r.columns| && r.columns[j] == TOTAL ==>
              r.cells[i][j] == Sum(f.cells[i])
    ensures forall i, j :: 0 <= i < |r.index| && 0 <= j < |f.columns| && f.columns[j] != TOTAL ==>
              r.cells[i][j] == f.cells[i][j]
  {
    if TOTAL in f.columns then
      var cells := seq(|f.cells|, i requires 0 <= i < |f.cells| =>
        seq(|f.columns|, j requires 0 <= j < |f.columns| =>
          if f.columns[j] == TOTAL then Sum(f.cells[i]) else f.cells[i][j]));
      Frame(f.index, f.columns, cells)
    else
      var cells := seq(|f.cells|, i requires 0 <= i < |f.cells| => f.cells[i] + [Sum(f.cells[i])]);
      Frame(f.index, f.columns + [TOTAL], cells)
  }

  lemma WithTotalDistinct(f: Frame)
    requires Shaped(f) && NoDuplicates(f.columns)
    ensures NoDuplicates(WithTotal(f).columns)
  {
  }

  /** `cross_tab` as an object whose "Total" column is inserted in place. */
  class CountTable {
    var index: seq<string>
    var columns: seq<string>
    var cells: seq<seq<nat>>

    function Value(): Frame
      reads this
    {
      Frame(index, columns, cells)
    }

    ghost predicate Valid()
      reads this
    {
      Shaped(Value())
    }

    constructor (f: Frame)
      requires Shaped(f)
      ensures Valid() && Value() == f
    {
      index, columns, cells := f.index, f.columns, f.cells;
    }

    /** `cross_tab["Total"] = cross_tab.sum(axis=1)` (line 111). */
    method InsertTotal()
      requires Valid()
      modifies this
      ensures Valid()
      ensures Value() == WithTotal(old(Value()))
    {
      var rows, labels := cells, columns;
      var totals: seq<nat> := seq(|rows|, i requires 0 <= i < |rows| => Sum(rows[i]));
      if TOTAL in labels {
        cells := seq(|rows|, i requires 0 <= i < |rows| =>
          seq(|labels|, j requires 0 <= j < |labels| =>
            if labels[j] == TOTAL then totals[i] else rows[i][j]));
        assert forall i :: 0 <= i < |rows| ==> cells[i] == WithTotal(old(Value())).cells[i];
      } else {
        cells := seq(|rows|, i requires 0 <= i < |rows| => rows[i] + [totals[i]]);
        columns := labels + [TOTAL];
      }
    }
  }

  // `WithoutTotal` (the header), `KeepCounts` (one row of counts) and `KeptFrom` (the
  // positions) walk the header in the same way. The first two are the drop itself, on the
  // labels and on the counts, as pandas removes a column from the header and from every
  // row. `KeptFrom` names the positions the walk keeps, so that `KeptPositions` and
  // `KeepCountsAt` can state how the labels and the counts of the result line up.

  /** `.drop(columns="Total")` on the header: every other label, in order. */
  function WithoutTotal(columns: seq<string>): (r: seq<string>)
    ensures TOTAL !in r && |r| <= |columns|
    ensures forall c :: c in r <==> c in columns && c != TOTAL
  {
    if columns == [] then []
    else (if columns[0] == TOTAL then [] else [columns[0]]) + WithoutTotal(columns[1..])
  }

  /** The positions, from `from` on, of the labels other than "Total", in increasing order. */
  function KeptFrom(columns: seq<string>, from: nat): (p: seq<nat>)
    requires from <= |columns|
    ensures forall m :: 0 <= m < |p| ==> from <= p[m] < |columns| && columns[p[m]] != TOTAL
    ensures forall m, m' :: 0 <= m < m' < |p| ==> p[m] < p[m']
    decreases |columns| - from
  {
    if from == |columns| then []
    else (if columns[from] == TOTAL then [] else [from]) + KeptFrom(columns, from + 1)
  }

  /** The labels at those positions are the ones `WithoutTotal` keeps from `from` on. */
  lemma {:induction false} KeptFromLabels(columns: seq<string>, from: nat)
    requires from <= |columns|
    ensures |KeptFrom(columns, from)| == |WithoutTotal(columns[from..])|
    ensures forall m :: 0 <= m < |KeptFrom(columns, from)| ==>
              columns[KeptFrom(columns, from)[m]] == WithoutTotal(columns[from..])[m]
    decreases |columns| - from
  {
    if from < |columns| {
      KeptFromLabels(columns, from + 1);
      assert columns[from..][1..] == columns[from + 1..];
    }
  }

  /**
   * Where each label kept by the drop sits in the original header: the positions of the
   * labels other than "Total", in increasing order. So the drop keeps the remaining
   * columns in their original order.
   */
  function KeptPositions(columns: seq<string>): (p: seq<nat>)
    ensures |p| == |WithoutTotal(columns)|
    ensures forall m :: 0 <= m < |p| ==> p[m] < |columns| && columns[p[m]] == WithoutTotal(columns)[m]
    ensures forall m, m' :: 0 <= m < m' < |p| ==> p[m] < p[m']
  {
    KeptFromLabels(columns, 0);
    assert columns[0..] == columns;
    KeptFrom(columns, 0)
  }

  /** `.drop(columns="Total")` on one row of counts labelled by `columns`. */
  function KeepCounts(columns: seq<string>, row: seq<nat>): (r: seq<nat>)
    ensures |row| >= |columns| ==> |r| == |WithoutTotal(columns)|
  {
    if columns == [] || row == [] then []
    else (if columns[0] == TOTAL then [] else [row[0]]) + KeepCounts(columns[1..], row[1..])
  }

  /** The counts `KeepCounts` keeps from position `from` on sit at `KeptFrom(columns, from)`. */
  lemma {:induction false} KeepCountsFrom(columns: seq<string>, row: seq<nat>, from: nat)
    requires |row| == |columns| && from <= |columns|
    ensures |KeepCounts(columns[from..], row[from..])| == |KeptFrom(columns, from)|
    ensures forall m :: 0 <= m < |KeptFrom(columns, from)| ==>
              KeepCounts(columns[from..], row[from..])[m] == row[KeptFrom(columns, from)[m]]
    decreases |columns| - from
  {
    if from < |columns| {
      KeepCountsFrom(columns, row, from + 1);
      assert columns[from..][1..] == columns[from + 1..];
      assert row[from..][1..] == row[from + 1..];
    }
  }

  /** Each count kept by the drop is the one under the same label in the original row. */
  lemma KeepCountsAt(columns: seq<string>, row: seq<nat>)
    requires |row| == |columns|
    ensures |KeepCounts(columns, row)| == |KeptPositions(columns)|
    ensures forall m :: 0 <= m < |KeptPositions(columns)| ==>
              KeepCounts(columns, row)[m] == row[KeptPositions(columns)[m]]
  {
    KeepCountsFrom(columns, row, 0);
    assert columns[0..] == columns && row[0..] == row;
  }

  /** Drops the "Total" columns from one ranked row; its source and total stay. */
  function DropFromRow(columns: seq<string>, x: Ranked): (r: Ranked)
    ensures r.source == x.source && r.total == x.total
  {
    Ranked(x.source, KeepCounts(columns, x.counts), x.total)
  }

  /** Drops the "Total" columns from every ranked row. */
  function Project(columns: seq<string>, rs: seq<Ranked>): (r: seq<Ranked>)
    ensures |r| == |rs|
  {
    if rs == [] then [] else [DropFromRow(columns, rs[0])] + Project(columns, rs[1..])
  }

  lemma {:induction false} ProjectAt(columns: seq<string>, rs: seq<Ranked>, i: nat)
    requires i < |rs|
    ensures Project(columns, rs)[i] == DropFromRow(columns, rs[i])
  {
    if i > 0 {
      ProjectAt(columns, rs[1..], i - 1);
    }
  }

  /** The rows of a table with a single "Total" column, each ranked by that column. */
  function ByTotalColumn(g: Frame): (r: seq<Ranked>)
    requires Shaped(g) && TOTAL in g.columns
    ensures |r| == |g.index|
    ensures forall i :: 0 <= i < |r| ==>
              r[i] == Ranked(g.index[i], g.cells[i], g.cells[i][FirstIndex(g.columns, TOTAL)])
  {
    var t := FirstIndex(g.columns, TOTAL);
    seq(|g.index|, i requires 0 <= i < |g.index| => Ranked(g.index[i], g.cells[i], g.cells[i][t]))
  }

  /**
   * Once line 111 has run, sorting by the "Total" column ranks every row by its full row
   * sum, whether the column was appended or overwrote a "Total" category.
   */
  lemma RankedByRowSum(f: Frame)
    requires Shaped(f)
    ensures |ByTotalColumn(WithTotal(f))| == |f.index|
    ensures forall i :: 0 <= i < |f.index| ==>
              ByTotalColumn(WithTotal(f))[i].source == f.index[i] &&
              ByTotalColumn(WithTotal(f))[i].total == Sum(f.cells[i])
  {
  }

  /**
   * Lines 112-117 on a table that has its "Total" column: sort the rows by that column,
   * largest first (ties in increasing label order), drop the column, keep `n` rows.
   * `sort_values` needs the label to name a single column.
   */
  function SortDropHead(g: Frame, n: nat): (r: Frame)
    requires Shaped(g) && NoDuplicates(g.columns) && TOTAL in g.columns
    ensures |r.index| == |r.cells| == Min(n, |g.index|)
    ensures r.columns == WithoutTotal(g.columns) && TOTAL !in r.columns
  {
    var sorted := Sort(ByTotalColumn(g));
    assert |sorted| == |multiset(sorted)| == |ByTotalColumn(g)|;
    var dropped := Project(g.columns, sorted);
    var kept := dropped[..Min(n, |dropped|)];
    Frame(Labels(kept), WithoutTotal(g.columns), Counts(kept))
  }

  /**
   * Lines 111-117 as written: `min(n, rows)` rows, and never a "Total" column. Its relation
   * to the ranking of `Ranking.Top` is `AsWrittenIsTopWithoutTotal`.
   */
  function AsWrittenTop(f: Frame, n: nat): (r: Frame)
    requires Shaped(f) && NoDuplicates(f.columns)
    ensures |r.index| == |r.cells| == Min(n, |f.index|)
    ensures TOTAL !in r.columns
  {
    WithTotalDistinct(f);
    SortDropHead(WithTotal(f), n)
  }

  /**
   * A table with every column labelled "Total" removed: the rows stay, the other columns
   * stay in order, and each kept cell is the one under the same label in `f`.
   */
  function DropTotal(f: Frame): (r: Frame)
    ensures r.index == f.index && r.columns == WithoutTotal(f.columns) && |r.cells| == |f.cells|
    ensures forall i :: 0 <= i < |f.cells| ==> r.cells[i] == KeepCounts(f.columns, f.cells[i])
    ensures TOTAL !in r.columns
    ensures Shaped(f) ==> Shaped(r)
    ensures Shaped(f) ==>
              forall i, m :: 0 <= i < |r.index| && 0 <= m < |r.columns| ==>
                r.cells[i][m] == f.cells[i][KeptPositions(f.columns)[m]]
  {
    var cells := seq(|f.cells|, i requires 0 <= i < |f.cells| => KeepCounts(f.columns, f.cells[i]));
    assert Shaped(f) ==> forall i :: 0 <= i < |cells| ==> |cells[i]| == |WithoutTotal(f.columns)|;
    assert Shaped(f) ==>
             forall i, m :: 0 <= i < |cells| && 0 <= m < |cells[i]| ==>
               cells[i][m] == f.cells[i][KeptPositions(f.columns)[m]] by {
      if Shaped(f) {
        forall i | 0 <= i < |cells| {
          KeepCountsAt(f.columns, f.cells[i]);
        }
      }
    }
    Frame(f.index, WithoutTotal(f.columns), cells)
  }

  // ---------------------------------------------------------------------------
  // Relating the as-written pipeline to the ranking
  // ---------------------------------------------------------------------------

  lemma {:induction false} KeepCountsAppended(columns: seq<string>, row: seq<nat>, x: nat)
    requires |row| == |columns|
    ensures KeepCounts(columns + [TOTAL], row + [x]) == KeepCounts(columns, row)
  {
    if columns != [] {
      assert (columns + [TOTAL])[1..] == columns[1..] + [TOTAL];
      assert (row + [x])[1..] == row[1..] + [x];
      KeepCountsAppended(columns[1..], row[1..], x);
    }
  }

  lemma {:induction false} KeepCountsOverwritten(columns: seq<string>, row: seq<nat>, row': seq<nat>)
    requires |row| == |columns| == |row'|
    requires forall j :: 0 <= j < |columns| && columns[j] != TOTAL ==> row'[j] == row[j]
    ensures KeepCounts(columns, row') == KeepCounts(columns, row)
  {
    if columns != [] {
      KeepCountsOverwritten(columns[1..], row[1..], row'[1..]);
    }
  }

  lemma {:induction false} WithoutTotalAppended(columns: seq<string>)
    ensures WithoutTotal(columns + [TOTAL]) == WithoutTotal(columns)
  {
    if columns == [] {
      assert WithoutTotal([TOTAL]) == [] + WithoutTotal([]);
    } else {
      assert (columns + [TOTAL])[1..] == columns[1..] + [TOTAL];
      WithoutTotalAppended(columns[1..]);
    }
  }

  /** Dropping columns does not change how two rows compare. */
  lemma ProjectOrdered(columns: seq<string>, rs: seq<Ranked>)
    requires Ordered(rs)
    ensures Ordered(Project(columns, rs))
  {
    var p := Project(columns, rs);
    forall i, j | 0 <= i < j < |p| ensures Precedes(p[i], p[j]) {
      ProjectAt(columns, rs, i);
      ProjectAt(columns, rs, j);
      assert Precedes(rs[i], rs[j]);
    }
  }

  lemma {:induction false} ProjectInsert(columns: seq<string>, x: Ranked, rs: seq<Ranked>)
    requires Ordered(rs)
    ensures Ordered(Project(columns, rs))
    ensures Insert(DropFromRow(columns, x), Project(columns, rs)) == Project(columns, Insert(x, rs))
  {
    ProjectOrdered(columns, rs);
    if rs != [] && !Precedes(x, rs[0]) {
      ProjectOrdered(columns, rs[1..]);
      ProjectInsert(columns, x, rs[1..]);
    }
  }

  lemma {:induction false} ProjectSort(columns: seq<string>, rs: seq<Ranked>)
    ensures Sort(Project(columns, rs)) == Project(columns, Sort(rs))
  {
    if rs != [] {
      ProjectSort(columns, rs[1..]);
      ProjectInsert(columns, rs[0], Sort(rs[1..]));
    }
  }

  /** Before sorting, the as-written rows and the ranked rows agree once "Total" is dropped. */
  lemma RowsAgree(f: Frame)
    requires Shaped(f) && NoDuplicates(f.columns)
    ensures Project(WithTotal(f).columns, ByTotalColumn(WithTotal(f))) == Project(f.columns, RowsOf(f))
  {
    var g := WithTotal(f);
    var rowsG := ByTotalColumn(g);
    var rowsF := RowsOf(f);
    forall i | 0 <= i < |f.index|
      ensures Project(g.columns, rowsG)[i] == Project(f.columns, rowsF)[i]
    {
      ProjectAt(g.columns, rowsG, i);
      ProjectAt(f.columns, rowsF, i);
      if TOTAL in f.columns {
        KeepCountsOverwritten(f.columns, f.cells[i], g.cells[i]);
      } else {
        assert g.cells[i] == f.cells[i] + [Sum(f.cells[i])];
        KeepCountsAppended(f.columns, f.cells[i], Sum(f.cells[i]));
      }
    }
  }

  lemma {:induction false} ProjectPrefix(columns: seq<string>, rs: seq<Ranked>, m: nat)
    requires m <= |rs|
    ensures Project(columns, rs)[..m] == Project(columns, rs[..m])
  {
    forall i | 0 <= i < m
      ensures Project(columns, rs)[i] == Project(columns, rs[..m])[i]
    {
      ProjectAt(columns, rs, i);
      ProjectAt(columns, rs[..m], i);
    }
  }

  lemma ProjectedFrame(columns: seq<string>, kept: seq<Ranked>)
    ensures Frame(Labels(Project(columns, kept)), WithoutTotal(columns), Counts(Project(columns, kept)))
            == DropTotal(Frame(Labels(kept), columns, Counts(kept)))
  {
    forall i | 0 <= i < |kept|
      ensures Project(columns, kept)[i] == DropFromRow(columns, kept[i])
    {
      ProjectAt(columns, kept, i);
    }
  }

  /**
   * The as-written lines 111-117 give the ranking of `Ranking.Top` with the "Total"
   * category's column removed: ranking and truncation agree, and only that column differs.
   */
  lemma {:induction false} AsWrittenIsTopWithoutTotal(f: Frame, n: nat)
    requires Shaped(f) && NoDuplicates(f.columns)
    ensures AsWrittenTop(f, n) == DropTotal(Top(f, n))
  {
    WithTotalDistinct(f);
    var ranked := Rank(f);
    SortedAsWritten(f);
    var m := Min(n, |f.index|);
    ProjectPrefix(f.columns, ranked, m);
    TopIsPrefix(f, n);
    ProjectedFrame(f.columns, ranked[..m]);
  }

  /** Sorting by the "Total" column and dropping it gives the ranking with that column dropped. */
  lemma {:induction false} SortedAsWritten(f: Frame)
    requires Shaped(f) && NoDuplicates(f.columns)
    ensures Project(WithTotal(f).columns, Sort(ByTotalColumn(WithTotal(f)))) == Project(f.columns, Rank(f))
    ensures WithoutTotal(WithTotal(f).columns) == WithoutTotal(f.columns)
  {
    var g := WithTotal(f);
    RowsAgree(f);
    ProjectSort(g.columns, ByTotalColumn(g));
    ProjectSort(f.columns, RowsOf(f));
    if TOTAL !in f.columns {
      WithoutTotalAppended(f.columns);
    }
  }


  lemma {:induction false} KeepCountsWithoutTotal(columns: seq<string>, row: seq<nat>)
    requires |row| == |columns| && TOTAL !in columns
    ensures KeepCounts(columns, row) == row && WithoutTotal(columns) == columns
  {
    if columns != [] {
      KeepCountsWithoutTotal(columns[1..], row[1..]);
      assert row == [row[0]] + row[1..];
      assert columns == [columns[0]] + columns[1..];
    }
  }

  lemma DropTotalWithoutTotal(fr: Frame)
    requires Shaped(fr) && TOTAL !in fr.columns
    ensures DropTotal(fr) == fr
  {
    forall i | 0 <= i < |fr.cells|
      ensures KeepCounts(fr.columns, fr.cells[i]) == fr.cells[i]
    {
      KeepCountsWithoutTotal(fr.columns, fr.cells[i]);
    }
    KeepCountsWithoutTotal(fr.columns, seq(|fr.columns|, j => 0));
  }

  /** Without a "Total" category the as-written lines compute exactly `Ranking.Top`. */
  lemma {:induction false} AsWrittenAgreesWithoutTotalCategory(f: Frame, n: nat)
    requires Shaped(f) && NoDuplicates(f.columns) && TOTAL !in f.columns
    ensures AsWrittenTop(f, n) == Top(f, n)
  {
    AsWrittenIsTopWithoutTotal(f, n);
    DropTotalWithoutTotal(Top(f, n));
  }

  /**
   * The discrepancy: one record with source "Online" and confirmation "total" (cleaned to
   * "Total") gives a cross-tabulation with the single column "Total", and the as-written
   * lines return the "Online" row with no columns at all.
   */
  lemma TotalCategoryIsLost()
    ensures Normalize("total") == TOTAL
    ensures Crosstab([("Online", TOTAL)]).columns == [TOTAL]
    ensures AsWrittenTop(Crosstab([("Online", TOTAL)]), 5).columns == []
    ensures Top(Crosstab([("Online", TOTAL)]), 5).columns == [TOTAL]
  {
    NormalizeWord("total");
    assert Lower("otal") == "otal";
    var ps := [("Online", TOTAL)];
    assert Confirms(ps) == [TOTAL];
    assert SortedKeys([TOTAL]) == [TOTAL] by {
      assert [TOTAL][..0] == [];
    }
    var f := Crosstab(ps);
    IncreasingIsDistinct(f.columns);
    AsWrittenIsTopWithoutTotal(f, 5);
    assert WithoutTotal([TOTAL]) == [] + WithoutTotal([]);
  }
}

=== FILE: wrappers.dfy ===
/** Success-or-error results, used wherever the dashboard stops a run with an error message. */
module Wrappers {

  datatype Result<+T, +E> = Ok(value: T) | Err(error: E)
}
